=== FILE: README.md ===
# Multiboot kernel loader of xhyve, modelled in Dafny

xhyve can boot a kernel directly in Multiboot mode (Multiboot Specification
0.6.96). `src/firmware/multiboot.c` does this in two phases, and this project
models both as pure functions over byte sequences.

1. `multiboot_init` reads the kernel file and derives a load plan.
   - It scans the file one `uint32_t` at a time for the
     magic/flags/checksum triple.
   - When flags bit 16 is set, it reads the five address fields that follow
     the triple.
   - From these it derives the file offset to copy from (`image_load`), the
     number of bytes to copy (`image_length`) and the guest-physical load
     address (`physical_load`).
2. `multiboot` carries out the plan.
   - It copies the image into guest low memory.
   - It writes the Multiboot information table right after the image, and
     the optional NUL-terminated command line right after the table.
   - It programs vCPU 0 and returns the entry address.

The modules follow that structure:

- `Bytes`: `byte`, little-endian `uint32_t` words, C unsigned wrap-around
  (`Wrap32`, `Wrap64`) and stores into a memory image.
- `MultibootFormat`: the header records, their byte codecs, the error
  outcome, `Result` and `Option`.
- `HeaderScan`: the header search. `ScanFrom` is its functional definition;
  `FindHeader` is the loop as the loader runs it, with its own file position
  that is rewound by 8 after a rejected triple.
- `LoadPlanning`: `Resolve`, the whole of `multiboot_init`, with a
  `LoadPlan` that stands for the loader's zero-initialised statics.
- `Vcpu`: the register and descriptor plan, and the machine state of section
  3.2 of the Multiboot Specification.
- `GuestBootstrap`: `Bootstrap`, the whole of `multiboot`, plus `Load`, the
  two phases in sequence.
- `BootScenarios`: consequences for a kernel whose file starts at
  `load_addr`, and for a file that begins with the test kernel's triple.

## Modelling choices

- **Inputs.** The kernel file is a `seq<byte>`. Guest low memory is a
  `seq<byte>` indexed by guest-physical address. Its length is the low-memory
  size the VM runtime reports.
- **Errors.** Every `goto fail` of the source is an `Err` result. A read that
  ran past the end of the file is `ShortRead`. `fread` with item size 0 (an
  empty image) reports no item, which is `EmptyRead`.
- **Integer widths** are written out explicitly:
  - the checksum test is the sum reduced modulo 2^32;
  - the `unsigned long` subtractions of the derived-length branch use
    `Wrap64`;
  - `load_end_addr - load_addr`, `(uint32_t)physical_load`,
    `(uint32_t)xh_vm_get_lowmem_size()` and `cmdline_addr` use `Wrap32`.
- **Statics.** Fields of `LoadPlan` that the source never assigns stay 0, as
  the statics do.

## Where the model follows the code rather than the Multiboot Specification

- **No scan bound.** The scan has no 8192-byte bound. `found` is never set,
  so the loop ends only on a valid triple or on a short read
  (`HeaderScan.NoSearchLimit`).
- **Bit 16 clear.** A clear flags bit 16 is not an error in
  `multiboot_init`. The plan then has length 0, and the copy in `multiboot`
  fails (`GuestBootstrap.LoadWithoutAddressFieldsFails`).
- **Explicit `load_end_addr`.** `image_load` and `physical_load` keep their
  initial 0 in that branch, so the image is copied from file offset 0 to
  guest address 0 (`LoadPlanning.ResolveExplicitLength`).
- **`mem_lower`** holds 640*1024 rather than a size in KiB.
- **`mem_upper`** holds the low-memory size in bytes rather than the KiB
  above 1 MiB.
- **Memory bounds.** No store is checked against the size of guest memory.
  The model therefore requires the image, the table and the command line to
  fit (`Footprint(plan, cmdline) <= |mem|`), but only for a plan whose copy
  succeeds (`CopySucceeds`). A plan whose copy fails needs no bound: the
  model returns the copy's error, and the source ends in `exit(1)`. Such a
  plan can have an absurd length, for example 2^64 minus a little when the
  derived copy start lies past the end of the file, or 2^32 minus a little
  when `0 < load_end_addr < load_addr`.
- **Segments.** FS, GS and the GDTR are not set. `Vcpu.MeetsMultibootMachineState`
  states only what the source does set.

## Model

| member | source | states |
|---|---|---|
| HeaderScan.ScanFrom | src/firmware/multiboot.c:89-111 | a success is a word-aligned offset at or after the start position that holds a valid triple, with no valid triple at an aligned offset before it; a failure is a 4-byte read past the end of the file, and no aligned offset from the start position on holds a valid triple |
| HeaderScan.Scan | src/firmware/multiboot.c:87-114 | the search from the start of the file: a success is a word-aligned offset holding a valid triple, with no valid triple at an aligned offset before it; a failure is a 4-byte read past the end of the file, and then no aligned offset holds a valid triple |
| HeaderScan.ScanFindsFirstHeader | src/firmware/multiboot.c:89-114 | the scan returns offset k (`ftell - 12`) exactly when k is the first word-aligned offset holding the magic and a triple whose 32-bit sum is 0 |
| HeaderScan.ScanFailsIffNoHeader | src/firmware/multiboot.c:89-98 | the scan fails exactly when no word-aligned offset of the file holds a valid triple |
| HeaderScan.FindHeader | src/firmware/multiboot.c:84-114 | the loop that reads a word at a time and seeks back 8 after a rejected triple agrees with the scan, and finds the first valid triple or proves there is none |
| HeaderScan.ChecksumIsNegatedSum | src/firmware/multiboot.c:100 | for 32-bit magic and flags, exactly one 32-bit checksum passes the test: the negated sum of the other two words modulo 2^32 |
| HeaderScan.NoSearchLimit | src/firmware/multiboot.c:84-89 | a valid triple after 8192 zero bytes is still found, at offset 8192: the declared search bound is never applied |
| HeaderScan.FixtureTripleIsValid | test/multiboot/multiboot.c:10-12 | the test kernel's triple 0x1BADB002 / 0x10003 / 0xe4514ffb sums to 0 modulo 2^32 and sets bit 16 |
| MultibootFormat.KernelHeaderRoundTrip | src/firmware/multiboot.c:39-43 | a triple encoded anywhere in a file decodes back to itself at that offset |
| MultibootFormat.MemHeaderRoundTrip | src/firmware/multiboot.c:45-51 | the five address fields encoded anywhere in a file decode back to themselves at that offset |
| MultibootFormat.DecodeKernelHeader | src/firmware/multiboot.c:90-98 | the three word reads lose no byte: encoding the decoded triple gives back the 12 bytes at the offset; each field is below 2^32 |
| MultibootFormat.DecodeMemHeader | src/firmware/multiboot.c:120 | the 20-byte read loses no byte: encoding the decoded address fields gives back the 20 bytes at the offset; each field is below 2^32 |
| Bytes.U32DecodeEncode | src/firmware/multiboot.c:90-98 | the little-endian `uint32_t` read of the four bytes of a word gives the word back |
| Bytes.U32EncodeDecode | src/firmware/multiboot.c:90-98 | encoding the `uint32_t` read at an offset gives back the four bytes there |
| Bytes.Wrap32AddInner | src/firmware/multiboot.c:145 | truncating `image_length` to 32 bits before adding `load_addr` gives the same 32-bit result as truncating the sum |
| Bytes.Wrap32Sub | src/firmware/multiboot.c:151 | the 32-bit `load_end_addr - load_addr` is the plain difference when it is not negative, and the difference plus 2^32 otherwise |
| Bytes.WrapAddBack | src/firmware/multiboot.c:151 | adding the 32-bit `load_end_addr - load_addr` back to `load_addr` gives `load_end_addr` again in 32 bits, with or without borrow |
| Bytes.Wrap64SubInner | src/firmware/multiboot.c:136-137 | reducing `H - O` to `unsigned long` before subtracting it from `L` gives the same 64-bit result as `L + O - H` |
| Bytes.Wrap64Once | src/firmware/multiboot.c:136-141 | a value within one 2^64 of the `unsigned long` range is stored plus or minus exactly one 2^64 |
| Bytes.Wrap64Borrow | src/firmware/multiboot.c:141 | a negative `unsigned long` difference is stored as the difference plus 2^64 |
| Bytes.WriteBytes | src/firmware/multiboot.c:179 | after storing `data` at an offset, the bytes of that range are `data` and every other byte is unchanged |
| Bytes.WriteU32KeepsWord | src/firmware/multiboot.c:198-200 | a `uint32_t` field store leaves every word it does not overlap unchanged |
| LoadPlanning.Resolve | src/firmware/multiboot.c:113-153 | the plan is the header found by the scan, at the offset the scan found, with a 32-bit load address; scan failures pass through; with a triple found, resolution fails exactly when bit 16 is set and fewer than 20 bytes follow it, as a short read of 20 bytes right after the triple |
| LoadPlanning.PlanFromAddressFields | src/firmware/multiboot.c:135-152 | only `load_end_addr` may change, and afterwards it is `load_addr + image_length` in 32 bits; an explicit `load_end_addr` is kept, the length is below 2^32 and copy offset, load address and `physical_header` are 0; with `load_end_addr == 0` the image goes to `load_addr`, `physical_header` is `header_addr`, and a copy start inside a file shorter than 2^64 makes the image run to the end of the file |
| LoadPlanning.ResolveDecodesAddressFields | src/firmware/multiboot.c:118-146 | with bit 16 set and the 20 bytes present, resolution succeeds; `header_addr`, `load_addr`, `bss_end_addr` and `entry_addr` are the words at offsets 12, 16, 24 and 28 from the triple; `load_end_addr` is the word at offset 20 when that is nonzero, and `load_addr + image_length` in 32 bits otherwise |
| LoadPlanning.ResolveWithoutAddressFields | src/firmware/multiboot.c:118 | bit 16 clear: resolution succeeds with length, copy offset, load address and entry address 0 |
| LoadPlanning.ResolveDerivedLength | src/firmware/multiboot.c:135-149 | `load_end_addr == 0` and a copy start `L + O - H` inside the file: copying starts there and runs to the end of the file; the image goes to `load_addr`; `load_end_addr` becomes `load_addr + length` in 32 bits; `physical_header` is `header_addr`; the entry is kept |
| LoadPlanning.PlanImageLoad | src/firmware/multiboot.c:135-141 | with `load_end_addr == 0`, the two `unsigned long` subtractions give the copy start `L + O - H` modulo 2^64, whether or not `H - O` borrows: the start itself when it lies in [0, 2^64), and `2^64 + L + O - H` when the header address lies past `load_addr + O`; the length is the rest of the file, or borrows 2^64 when the start lies past the end of the file |
| LoadPlanning.UnsignedLongStart | src/firmware/multiboot.c:136-141 | `L - (uint64)(H - O)` is `L + O - H` modulo 2^64, wrapping by at most one 2^64 either way, and `|file| - image_load` borrows 2^64 exactly when the start lies past the end of the file |
| LoadPlanning.ResolvePastEndOfFile | src/firmware/multiboot.c:135-141 | with `load_end_addr == 0` and a copy start `L + O - H` modulo 2^64 past the end of the file, resolution still succeeds; `image_load` is `L + O - H` when `H <= L + O` and `2^64 + L + O - H` otherwise, and the length is `2^64 + |file| - image_load` |
| LoadPlanning.PlanPastEndOfFile | src/firmware/multiboot.c:135-141 | the same for any address fields with `load_end_addr == 0`: a wrapped start past the end of the file gives the borrowed length `2^64 + |file| - image_load` |
| LoadPlanning.PlanDerivedLength | src/firmware/multiboot.c:135-146 | for any address fields with `load_end_addr == 0` and a copy start inside a file shorter than 2^64, the plan copies from `L + O - H` to the end of the file, loads at `load_addr`, and sets `load_end_addr` to `load_addr + length` in 32 bits |
| LoadPlanning.ResolveExplicitLength | src/firmware/multiboot.c:150-152 | `load_end_addr != 0`: the length is the 32-bit difference `load_end_addr - load_addr`, with or without borrow; copy offset, load address and `physical_header` stay 0; the address fields are kept as read |
| LoadPlanning.ScanIgnoresTail | src/firmware/multiboot.c:89-111 | bytes appended after a found triple do not move it |
| LoadPlanning.ExplicitPlanIgnoresFileLength | src/firmware/multiboot.c:150-152 | with an explicit `load_end_addr`, appending bytes to the kernel file does not change the plan |
| LoadPlanning.ExplicitPlanIgnoresFile | src/firmware/multiboot.c:150-152 | with an explicit `load_end_addr`, the plan built from the address fields is the same for any two files |
| LoadPlanning.DerivedLengthTracksFileLength | src/firmware/multiboot.c:140-141 | with `load_end_addr == 0`, when the copy start `L + O - H` lies inside the file and no `unsigned long` wrap occurs, each byte appended to the file adds one byte to the image and leaves the load address alone |
| Vcpu.EntryState | src/firmware/multiboot.c:205-218 | CR0 enables protection without paging; EAX holds 0x2BADB002 and EBX the table address; RIP is the entry address; CS is a flat 32-bit ring-0 code segment and DS/ES/SS are flat data segments; CS and the data segments have different selectors, shared by DS/ES/SS |
| GuestBootstrap.InfoRoundTrip | src/firmware/multiboot.c:53-61 | the seven-word table encoded anywhere decodes back to itself, so the field offsets match `struct multiboot_info` |
| GuestBootstrap.InfoFlags | src/firmware/multiboot.c:187-198 | the flags word has bit 0 set, bit 2 set exactly when there is a command line, and no other bit |
| GuestBootstrap.CopyImage | src/firmware/multiboot.c:178-180 | the copy succeeds exactly when the length is positive and the file holds `image_load + image_length` bytes; a zero length is an empty read at `image_load`, otherwise a failure is a short read of the length there; guest memory need only hold the image when the copy succeeds |
| GuestBootstrap.WriteCmdline | src/firmware/multiboot.c:189-195 | after the command-line stores, `cmdline_addr` holds the guest address right after the table, in 32 bits |
| GuestBootstrap.WriteCmdlineKeepsWord | src/firmware/multiboot.c:190-193 | `strcpy` to the bytes after the table and the `cmdline_addr` store leave every other table word unchanged |
| GuestBootstrap.InfoHeadWords | src/firmware/multiboot.c:187-193 | the first table stores set `cmdline_addr` when there is a command line and leave `boot_device`, `mods_count`, `mods_addr` and, without a command line, `cmdline_addr` as they were |
| GuestBootstrap.InfoHead | src/firmware/multiboot.c:186-193 | after the first stores the flags word is 0 and, with a command line, `cmdline_addr` holds the guest address right after the table |
| GuestBootstrap.InfoTail | src/firmware/multiboot.c:198-200 | the last stores leave the flags at 0x1 or 0x5, `mem_lower` at 640*1024 and `mem_upper` at the low-memory size in 32 bits |
| GuestBootstrap.InfoTailKeepsByte | src/firmware/multiboot.c:198-200 | the last stores change no byte outside the table |
| GuestBootstrap.InfoTailKeepsWord | src/firmware/multiboot.c:198-200 | the last stores leave every word from `boot_device` on unchanged |
| GuestBootstrap.WriteInfo | src/firmware/multiboot.c:184-200 | after all the table stores, memory keeps its size; the flags word is 0x1 or 0x5, `mem_lower` is 640*1024, `mem_upper` is the low-memory size in 32 bits and, with a command line, `cmdline_addr` is the guest address right after the table |
| GuestBootstrap.WriteInfoTable | src/firmware/multiboot.c:184-200 | the table decoded after the stores is the table before them, with flags, `mem_lower`, `mem_upper` and (with a command line) `cmdline_addr` replaced by the stored values |
| GuestBootstrap.WriteInfoFrame | src/firmware/multiboot.c:184-195 | the table stores leave every byte outside the table and the command line unchanged |
| GuestBootstrap.WriteInfoCmdline | src/firmware/multiboot.c:189-200 | the command line and its NUL survive the later flag and size stores byte for byte |
| GuestBootstrap.Bootstrap | src/firmware/multiboot.c:164-225 | the bootstrap succeeds exactly when the copy does, and otherwise fails with the copy's error, for any size of guest memory; guest memory must hold the image, the table and the command line only when the copy succeeds; on success guest memory keeps its size, the returned entry address is `entry_addr` and is in RIP, and the vCPU meets the Multiboot machine state with EBX at `(uint32_t)physical_load + image_length` |
| GuestBootstrap.BootstrapKeepsCopy | src/firmware/multiboot.c:179-200 | the table and command-line stores leave the copied image untouched |
| GuestBootstrap.BootstrapLoadsImage | src/firmware/multiboot.c:173-180 | after a successful bootstrap, guest byte `P + d` of the image range is file byte `image_load + d` |
| GuestBootstrap.BootstrapInfoTable | src/firmware/multiboot.c:184-207 | RBX is the table address; the guest reads flags 0x1 or 0x5, `mem_lower` 655360, `mem_upper` the low-memory size, `cmdline_addr` right after the table when there is a command line, and the unwritten fields as memory held them before |
| GuestBootstrap.BootstrapCommandLine | src/firmware/multiboot.c:189-195 | the bytes right after the table are the command line followed by NUL |
| GuestBootstrap.BootstrapFrame | src/firmware/multiboot.c:173-200 | no guest byte outside the image, the table and the command line changes |
| GuestBootstrap.Load | src/firmware/multiboot.c:80-225 | a failed resolution is the loader's result and writes nothing; after a successful resolution the load succeeds exactly when the copy of the plan does; a successful load keeps the memory size, returns the entry address of the plan, and sets the Multiboot machine state with EBX at the table address of the plan |
| GuestBootstrap.LoadWithoutAddressFieldsFails | src/firmware/multiboot.c:178-180 | a kernel whose header has bit 16 clear is accepted by resolution but always fails to load, with an empty read at offset 0 |
| GuestBootstrap.LoadShortCopyFails | src/firmware/multiboot.c:178-180 | a resolved plan with a positive length that runs past the end of the file fails to load with a short read of that length at `image_load`, whatever the size of guest memory |
| GuestBootstrap.BootstrapShortCopyFails | src/firmware/multiboot.c:178-180 | the bootstrap of a plan whose positive length runs past the end of the file fails with a short read of that length at `image_load`, for any guest memory |
| GuestBootstrap.LoadPastEndOfFileFails | src/firmware/multiboot.c:135-180 | a kernel with `load_end_addr == 0` whose copy start `L + O - H` modulo 2^64 lies past the end of the file fails to load with a short read of `2^64 + |file| - image_load` bytes at `image_load` |
| GuestBootstrap.LoadNegativeStartFails | src/firmware/multiboot.c:135-180 | a kernel with `load_end_addr == 0` and `header_addr > load_addr + O`, in a file shorter than 2^64 - 2^32 bytes, fails to load with a short read of `|file| + H - L - O` bytes at `2^64 + L + O - H` |
| GuestBootstrap.LoadBackwardsRangeFails | src/firmware/multiboot.c:150-180 | a kernel with `0 < load_end_addr < load_addr` asks for `2^32 + load_end_addr - load_addr` bytes from offset 0, and fails to load with a short read of that length when the file is shorter |
| BootScenarios.WholeFileKernel | src/firmware/multiboot.c:135-149 | a kernel with `load_end_addr == 0` and `header_addr == load_addr + O` is copied whole from file offset 0 to `load_addr` and entered at `entry_addr` |
| BootScenarios.BootstrapWholeFile | src/firmware/multiboot.c:173-180 | the bootstrap of a non-empty plan that copies the whole file from offset 0 succeeds when the image, the table and the command line fit in guest memory |
| BootScenarios.BootWholeFileByte | src/firmware/multiboot.c:173-180 | loading such a kernel succeeds, and file byte j lands at guest address `load_addr + j` |
| BootScenarios.FixtureKernelLoadsWhole | test/multiboot/multiboot.c:10-17 | a file that begins with the test kernel's triple and address fields with `header_addr == load_addr` and `load_end_addr == 0`: the scan stops at offset 0, bit 16 asks for the address fields, and the plan copies the whole file to `load_addr` and enters at `entry_addr` |
| BootScenarios.FixtureHeaderFound | test/multiboot/multiboot.c:10-17 | in such a file the scan stops at offset 0, bit 16 is set, and the address fields read back as written |

## Left out

- `printf` logging and `exit(1)`: not observable in the model; each `goto fail` is an `Err` result.
- `fopen` and the kernel path: the kernel file is a byte sequence, and the unchecked `fopen` result has no counterpart.
- `fseek`, `ftell` and `feof`: the file position is an index into the file.
- `module_spec`: accepted by `multiboot_init` and never used.
- `bss_end_addr`: read, never used. The `.bss` range is not zeroed by the source, and the model does not zero it either.
- The VM runtime calls are not part of this model. The guest mapping is the memory sequence, the low-memory size is its length, and `xh_vcpu_reset` and the register and descriptor setters are replaced by the `VcpuState` record.
- Registers left at their reset values are not modelled: FS, GS, GDTR, EFLAGS and the general registers other than RAX and RBX.
- Host pointers and undefined behaviour: the model reasons in guest-physical offsets. A store beyond guest memory, which the source does not prevent, is excluded by the `Footprint` precondition for every plan whose copy succeeds.
- `GuestBootstrap.Bootstrap`: when the copy succeeds, requires the image, the table and the command line to fit below the low-memory size. Otherwise the source would store past the guest mapping, which has no counterpart in a memory sequence. When the copy fails, no bound is required and the model returns only the error. Bytes that `fread` may already have stored before the failure are not modelled, because the source then ends in `exit(1)`.
- `GuestBootstrap.CopyImage`: success is stated as "the file holds `image_load + image_length` bytes". The `(long)` cast of an `image_load` of 2^63 or more, which makes `fseek` fail before the read, is not modelled separately; it gives the same failure whenever the file is shorter than 2^63 bytes.
- `GuestBootstrap.BootstrapInfoTable`: `mem_upper` and `cmdline_addr` are stated only when the low-memory size fits in 32 bits. Beyond that, `Bootstrap` stores the 32-bit truncation (`WriteInfoTable` states that case).
- `LoadPlanning.ResolveDerivedLength`: stated only for a copy start `L + O - H` inside the file. `ResolvePastEndOfFile` states every other start that the 64-bit wrap puts past the end of the file, the negative ones included; `Resolve` computes the wrapped values for every input.
- End-to-end boots of a concrete kernel file are stated compositionally: `FixtureKernelLoadsWhole` gives the plan, and `BootWholeFileByte` with the `GuestBootstrap` lemmas gives the memory and registers.

=== FILE: BootScenarios.dfy ===
/** End-to-end consequences of `multiboot_init` followed by `multiboot` for
    a kernel whose file starts at `load_addr`: the triple's own address is
    `load_addr` plus its file offset, and `load_end_addr` is 0 (the image
    runs to the end of the file). The test kernel shipped with the loader
    supplies the triple and the shape of the address fields used in the
    last lemmas; where its header lands in its linked file is not modelled. */
module BootScenarios {
  import opened Bytes
  import opened MultibootFormat
  import opened HeaderScan
  import opened LoadPlanning
  import opened Vcpu
  import opened GuestBootstrap

  /** The address fields of a kernel whose first byte is linked at
      `load_addr` and whose image runs to the end of the file. */
  predicate LinkedAtFileStart(file: seq<byte>, k: nat)
    requires k + HEADER_SIZE + MEM_HEADER_SIZE <= |file|
  {
    var mh := FileMemHeader(file, k);
    mh.loadEndAddr == 0 && mh.headerAddr == mh.loadAddr + k
  }

  /** Such a kernel is copied whole: from file offset 0, all of its bytes,
      to guest address `load_addr`, entered at `entry_addr`. */
  lemma WholeFileKernel(file: seq<byte>, k: nat)
    requires Scan(file) == Ok(k)
    requires HasAddressFields(U32At(file, k + 4))
    requires k + HEADER_SIZE + MEM_HEADER_SIZE <= |file| < U64_LIMIT
    requires LinkedAtFileStart(file, k)
    ensures Resolve(file).Ok?
    ensures var p := Resolve(file).value;
            && p.imageLoad == 0
            && p.imageLength == |file|
            && p.physicalLoad == FileMemHeader(file, k).loadAddr
            && p.memHeader.entryAddr == FileMemHeader(file, k).entryAddr
  {
    ResolveDerivedLength(file, k);
  }

  /** A resolved plan that copies the whole file from offset 0, with room
      for the image, the table and the command line below `|mem|`. */
  predicate WholeFilePlan(file: seq<byte>, plan: LoadPlan, cmdline: Option<seq<byte>>, mem: seq<byte>) {
    && Resolve(file) == Ok(plan)
    && plan.imageLoad == 0 && plan.imageLength == |file|
    && LoadAddr(plan) + |file| + INFO_SIZE + CmdlineSize(cmdline) <= |mem| <= U32_LIMIT
  }

  /** The bootstrap of a non-empty plan that copies the whole file from
      offset 0 succeeds. */
  lemma BootstrapWholeFile(file: seq<byte>, plan: LoadPlan, cmdline: Option<seq<byte>>, mem: seq<byte>)
    requires cmdline.Some? ==> IsCString(cmdline.value)
    requires plan.imageLoad == 0 && plan.imageLength == |file| > 0
    requires LoadAddr(plan) + |file| + INFO_SIZE + CmdlineSize(cmdline) <= |mem|
    ensures Footprint(plan, cmdline) <= |mem|
    ensures Bootstrap(file, plan, cmdline, mem).Ok?
  {
  }

  /** After a successful bootstrap of such a plan, guest byte `P + j` is
      file byte `j`. */
  lemma BootstrapWholeFileByte(file: seq<byte>, plan: LoadPlan, cmdline: Option<seq<byte>>, mem: seq<byte>, j: nat)
    requires cmdline.Some? ==> IsCString(cmdline.value)
    requires plan.imageLoad == 0 && plan.imageLength == |file|
    requires Footprint(plan, cmdline) <= |mem|
    requires Bootstrap(file, plan, cmdline, mem).Ok?
    requires j < |file|
    ensures Bootstrap(file, plan, cmdline, mem).value.mem[LoadAddr(plan) + j] == file[j]
  {
    var i := LoadAddr(plan) + j;
    assert plan.imageLoad + (i - LoadAddr(plan)) == j;
    BootstrapLoadsImage(file, plan, cmdline, mem, i);
  }

  /** Loading a kernel whose plan copies the whole file: file byte `j` lands
      at guest address `P + j`, where `P` is the load address. */
  lemma BootWholeFileByte(file: seq<byte>, plan: LoadPlan, cmdline: Option<seq<byte>>, mem: seq<byte>, j: nat)
    requires cmdline.Some? ==> IsCString(cmdline.value)
    requires WholeFilePlan(file, plan, cmdline, mem)
    requires j < |file|
    ensures Footprint(plan, cmdline) <= |mem|
    ensures Load(file, cmdline, mem).Ok?
    ensures Load(file, cmdline, mem).value.mem[LoadAddr(plan) + j] == file[j]
  {
    BootstrapWholeFile(file, plan, cmdline, mem);
    LoadResolved(file, plan, cmdline, mem);
    BootstrapWholeFileByte(file, plan, cmdline, mem, j);
  }

  /** The file of `FixtureKernelLoadsWhole`: the test kernel's triple, then
      address fields with `header_addr == load_addr == l`, no explicit end
      and entry `e`, then any bytes. */
  function FixtureFile(l: nat, e: nat, rest: seq<byte>): seq<byte>
    requires l < U32_LIMIT && e < U32_LIMIT
  {
    EncodeKernelHeader(KernelHeader(HEADER_MAGIC, 0x10003, 0xe4514ffb))
      + EncodeMemHeader(MemHeader(l, l, 0, 0, e)) + rest
  }

  /** In that file the scan stops at offset 0, bit 16 is set and the
      address fields read back as written. */
  lemma FixtureHeaderFound(l: nat, e: nat, rest: seq<byte>)
    requires l < U32_LIMIT && e < U32_LIMIT
    ensures var file := FixtureFile(l, e, rest);
            && |file| == HEADER_SIZE + MEM_HEADER_SIZE + |rest|
            && Scan(file) == Ok(0)
            && HasAddressFields(U32At(file, 4))
            && FileMemHeader(file, 0) == MemHeader(l, l, 0, 0, e)
  {
    var h := KernelHeader(HEADER_MAGIC, 0x10003, 0xe4514ffb);
    var mh := MemHeader(l, l, 0, 0, e);
    var file := FixtureFile(l, e, rest);
    FixtureTripleIsValid();
    KernelHeaderRoundTrip(h, [], EncodeMemHeader(mh) + rest);
    assert [] + EncodeKernelHeader(h) + (EncodeMemHeader(mh) + rest) == file;
    MemHeaderRoundTrip(mh, EncodeKernelHeader(h), rest);
    assert HeaderAt(file, 0);
    ScanFindsFirstHeader(file, 0);
  }

  /** A file that begins with the test kernel's triple and address fields
      with `header_addr == load_addr == l` and `load_end_addr == 0`: the
      scan stops at offset 0 and the whole file is copied to `l`, entered
      at `e`. */
  lemma FixtureKernelLoadsWhole(l: nat, e: nat, rest: seq<byte>)
    requires l < U32_LIMIT && e < U32_LIMIT && |rest| < U32_LIMIT
    ensures var file := FixtureFile(l, e, rest);
            && Scan(file) == Ok(0)
            && HasAddressFields(U32At(file, 4))
            && FileMemHeader(file, 0) == MemHeader(l, l, 0, 0, e)
            && LinkedAtFileStart(file, 0)
            && Resolve(file).Ok?
            && Resolve(file).value.imageLoad == 0
            && Resolve(file).value.imageLength == |file|
            && Resolve(file).value.physicalLoad == l
            && Resolve(file).value.memHeader.entryAddr == e
  {
    FixtureHeaderFound(l, e, rest);
    WholeFileKernel(FixtureFile(l, e, rest), 0);
  }
}

=== FILE: Bytes.dfy ===
/** Little-endian 32-bit words over byte sequences, C unsigned wrap-around,
    and byte-range writes into a memory image. The kernel file and guest
    physical memory are both modelled as `seq<byte>`. */
module Bytes {

  /** An octet of the kernel file or of guest memory. */
  newtype byte = b: int | 0 <= b < 0x100

  const U32_LIMIT: nat := 0x1_0000_0000
  const U64_LIMIT: nat := 0x1_0000_0000_0000_0000

  /** C `uint32_t` arithmetic: the value reduced modulo 2^32. */
  function Wrap32(x: int): (r: nat)
    ensures r < U32_LIMIT
    ensures (x - r) % U32_LIMIT == 0
    ensures 0 <= x < U32_LIMIT ==> r == x
  {
    x % U32_LIMIT
  }

  /** C `unsigned long` (64-bit) arithmetic: the value reduced modulo 2^64. */
  function Wrap64(x: int): (r: nat)
    ensures r < U64_LIMIT
    ensures (x - r) % U64_LIMIT == 0
    ensures 0 <= x < U64_LIMIT ==> r == x
  {
    x % U64_LIMIT
  }

  /** Adding back a 32-bit difference gives the minuend. */
  lemma WrapAddBack(a: nat, b: nat)
    requires a < U32_LIMIT && b < U32_LIMIT
    ensures Wrap32(a + Wrap32(b - a)) == b
  {
    Wrap32Sub(b, a);
    if b < a {
      assert (a + (U32_LIMIT + b - a)) % U32_LIMIT == b;
    }
  }

  /** A negative 64-bit difference borrows 2^64. */
  lemma Wrap64Borrow(x: int)
    requires x < 0 && 0 <= x + U64_LIMIT
    ensures Wrap64(x) == x + U64_LIMIT
  {
    assert (x + U64_LIMIT) % U64_LIMIT == x + U64_LIMIT;
  }

  /** A value within one 2^64 of the `unsigned long` range wraps by at
      most one 2^64 either way. */
  lemma Wrap64Once(x: int)
    requires 0 <= x + U64_LIMIT && x < 2 * U64_LIMIT
    ensures x < 0 ==> Wrap64(x) == x + U64_LIMIT
    ensures U64_LIMIT <= x ==> Wrap64(x) == x - U64_LIMIT
  {
    if x < 0 {
      Wrap64Borrow(x);
    } else if U64_LIMIT <= x {
      assert (x - U64_LIMIT) % U64_LIMIT == x - U64_LIMIT;
    }
  }

  /** Reducing the subtrahend to 64 bits first does not change the 64-bit
      difference: `a - (unsigned long)b` and `a - b` agree modulo 2^64. */
  lemma Wrap64SubInner(a: int, b: int)
    ensures Wrap64(a - Wrap64(b)) == Wrap64(a - b)
  {
    var q := b / U64_LIMIT;
    assert b == q * U64_LIMIT + Wrap64(b);
    assert a - Wrap64(b) == (a - b) + q * U64_LIMIT;
  }

  /** Truncating an intermediate sum to 32 bits does not change the final
      32-bit result. */
  lemma Wrap32AddInner(a: nat, b: nat)
    ensures Wrap32(Wrap32(a) + b) == Wrap32(a + b)
  {
    var q := a / U32_LIMIT;
    assert a == q * U32_LIMIT + Wrap32(a);
    var c := Wrap32(a) + b;
    assert a + b == c + q * U32_LIMIT;
    ModuloShift(c, q);
  }

  /** A `uint32_t` subtraction borrows 2^32 exactly when it would go
      negative. */
  lemma Wrap32Sub(a: nat, b: nat)
    requires a < U32_LIMIT && b < U32_LIMIT
    ensures b <= a ==> Wrap32(a - b) == a - b
    ensures a < b ==> Wrap32(a - b) == U32_LIMIT + a - b
  {
    if a < b {
      var x := a - b;
      assert (x + U32_LIMIT) % U32_LIMIT == x + U32_LIMIT;
    }
  }

  lemma {:induction false} ModuloShift(c: nat, q: nat)
    ensures (c + q * U32_LIMIT) % U32_LIMIT == c % U32_LIMIT
  {
    if q > 0 {
      ModuloShift(c, q - 1);
      assert c + q * U32_LIMIT == (c + (q - 1) * U32_LIMIT) + U32_LIMIT;
    }
  }

  /** The little-endian `uint32_t` stored in bytes `s[i..i+4]`, as an x86
      host reads it with `fread` into a `uint32_t`. */
  function U32At(s: seq<byte>, i: nat): (v: nat)
    requires i + 4 <= |s|
    ensures v < U32_LIMIT
  {
    s[i] as int + 0x100 * (s[i + 1] as int + 0x100 * (s[i + 2] as int + 0x100 * s[i + 3] as int))
  }

  /** The four little-endian bytes of a `uint32_t`. */
  function U32Bytes(v: nat): (b: seq<byte>)
    requires v < U32_LIMIT
    ensures |b| == 4
  {
    [(v % 0x100) as byte,
     (v / 0x100 % 0x100) as byte,
     (v / 0x100 / 0x100 % 0x100) as byte,
     (v / 0x100 / 0x100 / 0x100) as byte]
  }

  /** Encoding then decoding a word gives the word back. */
  lemma U32DecodeEncode(v: nat)
    requires v < U32_LIMIT
    ensures U32At(U32Bytes(v), 0) == v
  {
    var q1 := v / 0x100;
    var q2 := q1 / 0x100;
    var q3 := q2 / 0x100;
    assert v == v % 0x100 + 0x100 * q1;
    assert q1 == q1 % 0x100 + 0x100 * q2;
    assert q2 == q2 % 0x100 + 0x100 * q3;
    assert q3 < 0x100;
  }

  /** A byte below a multiple of 256 is recovered by `%` and `/`. */
  lemma ByteDivMod(b: int, q: int)
    requires 0 <= b < 0x100
    ensures (b + 0x100 * q) % 0x100 == b && (b + 0x100 * q) / 0x100 == q
  {
  }

  /** Decoding four bytes then encoding the word gives the bytes back. */
  lemma U32EncodeDecode(s: seq<byte>, i: nat)
    requires i + 4 <= |s|
    ensures U32Bytes(U32At(s, i)) == s[i..i + 4]
  {
    var b0, b1, b2, b3 := s[i] as int, s[i + 1] as int, s[i + 2] as int, s[i + 3] as int;
    var q2 := b2 + 0x100 * b3;
    var q1 := b1 + 0x100 * q2;
    var v := U32At(s, i);
    assert v == b0 + 0x100 * q1;
    ByteDivMod(b0, q1);
    ByteDivMod(b1, q2);
    ByteDivMod(b2, b3);
    var e := U32Bytes(v);
    assert e[0] == s[i] && e[1] == s[i + 1] && e[2] == s[i + 2] && e[3] == s[i + 3];
  }

  /** A word read depends only on its own four bytes. */
  lemma U32AtFrame(s: seq<byte>, t: seq<byte>, i: nat, j: nat)
    requires i + 4 <= |s| && j + 4 <= |t|
    requires s[i..i + 4] == t[j..j + 4]
    ensures U32At(s, i) == U32At(t, j)
  {
    assert s[i] == s[i..i + 4][0] == t[j..j + 4][0] == t[j];
    assert s[i + 1] == s[i..i + 4][1] == t[j..j + 4][1] == t[j + 1];
    assert s[i + 2] == s[i..i + 4][2] == t[j..j + 4][2] == t[j + 2];
    assert s[i + 3] == s[i..i + 4][3] == t[j..j + 4][3] == t[j + 3];
  }

  /** `mem` with `data` stored at offset `off`: the bytes of the range are
      `data` and every byte outside it keeps its value. */
  function WriteBytes(mem: seq<byte>, off: nat, data: seq<byte>): (r: seq<byte>)
    requires off + |data| <= |mem|
    ensures |r| == |mem|
    ensures forall i :: off <= i < off + |data| ==> r[i] == data[i - off]
    ensures forall i :: 0 <= i < |mem| && !(off <= i < off + |data|) ==> r[i] == mem[i]
  {
    seq(|mem|, i requires 0 <= i < |mem| => if off <= i < off + |data| then data[i - off] else mem[i])
  }

  /** A word that lies wholly outside the written range keeps its value. */
  lemma WriteBytesKeepsWord(mem: seq<byte>, off: nat, data: seq<byte>, a: nat)
    requires off + |data| <= |mem|
    requires a + 4 <= |mem| && (a + 4 <= off || off + |data| <= a)
    ensures U32At(WriteBytes(mem, off, data), a) == U32At(mem, a)
  {
    var r := WriteBytes(mem, off, data);
    assert r[a] == mem[a] && r[a + 1] == mem[a + 1] && r[a + 2] == mem[a + 2] && r[a + 3] == mem[a + 3];
  }

  /** A `uint32_t` field store into memory. */
  function WriteU32(mem: seq<byte>, off: nat, v: nat): (r: seq<byte>)
    requires off + 4 <= |mem|
    requires v < U32_LIMIT
    ensures |r| == |mem|
    ensures U32At(r, off) == v
  {
    var r := WriteBytes(mem, off, U32Bytes(v));
    U32DecodeEncode(v);
    U32AtFrame(r, U32Bytes(v), off, 0);
    r
  }

  /** A word store leaves every word that does not overlap it unchanged. */
  lemma WriteU32KeepsWord(mem: seq<byte>, off: nat, v: nat, a: nat)
    requires off + 4 <= |mem| && v < U32_LIMIT
    requires a + 4 <= |mem| && (a + 4 <= off || off + 4 <= a)
    ensures U32At(WriteU32(mem, off, v), a) == U32At(mem, a)
  {
    WriteBytesKeepsWord(mem, off, U32Bytes(v), a);
  }
}

=== FILE: GuestBootstrap.dfy ===
/** `multiboot`: copy the kernel image into guest memory, lay out the
    Multiboot information table (section 3.3 of the Multiboot Specification
    0.6.96) and the optional command line right after the image, and
    program vCPU 0. Guest low memory is a byte sequence indexed by
    guest-physical address; its length is the low-memory size the VM
    runtime reports. The source never checks that its writes stay inside
    that memory, so the model requires it of the caller. */
module GuestBootstrap {
  import opened Bytes
  import opened MultibootFormat
  import opened HeaderScan
  import opened LoadPlanning
  import opened Vcpu

  /** Byte size of `struct multiboot_info` (seven `uint32_t`). */
  const INFO_SIZE: nat := 28
  /** Field offsets in `struct multiboot_info`. */
  const INFO_FLAGS: nat := 0
  const INFO_MEM_LOWER: nat := 4
  const INFO_MEM_UPPER: nat := 8
  const INFO_BOOT_DEVICE: nat := 12
  const INFO_CMDLINE: nat := 16
  const INFO_MODS_COUNT: nat := 20
  const INFO_MODS_ADDR: nat := 24

  /** Info flags bit 0: `mem_lower`/`mem_upper` are valid. */
  const INFO_FLAG_MEMORY: nat := 0x1
  /** Info flags bit 2: `cmdline` is valid. */
  const INFO_FLAG_CMDLINE: nat := 0x4
  /** The value stored in `mem_lower`: `640*1024`. */
  const MEM_LOWER_VALUE: nat := 640 * 1024

  /** `struct multiboot_info` as the guest kernel reads it. */
  datatype MultibootInfo = MultibootInfo(
    flags: nat,
    memLower: nat,
    memUpper: nat,
    bootDevice: nat,
    cmdlineAddr: nat,
    modsCount: nat,
    modsAddr: nat)

  /** What the bootstrap leaves behind: guest memory, vCPU 0 and the entry
      address `multiboot` returns. */
  datatype Boot = Boot(mem: seq<byte>, cpu: VcpuState, entry: nat)

  predicate InfoIsU32(i: MultibootInfo) {
    && i.flags < U32_LIMIT && i.memLower < U32_LIMIT && i.memUpper < U32_LIMIT
    && i.bootDevice < U32_LIMIT && i.cmdlineAddr < U32_LIMIT
    && i.modsCount < U32_LIMIT && i.modsAddr < U32_LIMIT
  }

  /** The table stored at guest address `at`, field by field. */
  function DecodeInfo(mem: seq<byte>, at: nat): (i: MultibootInfo)
    requires at + INFO_SIZE <= |mem|
    ensures InfoIsU32(i)
  {
    MultibootInfo(
      U32At(mem, at + INFO_FLAGS), U32At(mem, at + INFO_MEM_LOWER), U32At(mem, at + INFO_MEM_UPPER),
      U32At(mem, at + INFO_BOOT_DEVICE), U32At(mem, at + INFO_CMDLINE),
      U32At(mem, at + INFO_MODS_COUNT), U32At(mem, at + INFO_MODS_ADDR))
  }

  /** The 28-byte image of a table, fields in declaration order. */
  function EncodeInfo(i: MultibootInfo): (b: seq<byte>)
    requires InfoIsU32(i)
    ensures |b| == INFO_SIZE
  {
    U32Bytes(i.flags) + U32Bytes(i.memLower) + U32Bytes(i.memUpper) + U32Bytes(i.bootDevice)
      + U32Bytes(i.cmdlineAddr) + U32Bytes(i.modsCount) + U32Bytes(i.modsAddr)
  }

  /** The field offsets and the encoding agree: a table written whole is
      read back field for field wherever it is placed. */
  lemma {:induction false} InfoRoundTrip(i: MultibootInfo, pre: seq<byte>, post: seq<byte>)
    requires InfoIsU32(i)
    ensures DecodeInfo(pre + EncodeInfo(i) + post, |pre|) == i
  {
    var m := pre + EncodeInfo(i) + post;
    var n := |pre|;
    assert m[n..n + 4] == U32Bytes(i.flags);
    assert m[n + 4..n + 8] == U32Bytes(i.memLower);
    assert m[n + 8..n + 12] == U32Bytes(i.memUpper);
    assert m[n + 12..n + 16] == U32Bytes(i.bootDevice);
    assert m[n + 16..n + 20] == U32Bytes(i.cmdlineAddr);
    assert m[n + 20..n + 24] == U32Bytes(i.modsCount);
    assert m[n + 24..n + 28] == U32Bytes(i.modsAddr);
    WordOfEncoding(m, n, i.flags);
    WordOfEncoding(m, n + 4, i.memLower);
    WordOfEncoding(m, n + 8, i.memUpper);
    WordOfEncoding(m, n + 12, i.bootDevice);
    WordOfEncoding(m, n + 16, i.cmdlineAddr);
    WordOfEncoding(m, n + 20, i.modsCount);
    WordOfEncoding(m, n + 24, i.modsAddr);
  }

  /** A C string: no byte of it is NUL (the terminator is not part of it). */
  predicate IsCString(c: seq<byte>) {
    forall i :: 0 <= i < |c| ==> c[i] != 0
  }

  /** The info flags: zeroed, then bit 2 set when there is a command line,
      then bit 0 set. The two bits are distinct, so the ORs are sums. */
  function InfoFlags(hasCmdline: bool): (f: nat)
    ensures f < U32_LIMIT
    ensures BitSet(f, INFO_FLAG_MEMORY)
    ensures BitSet(f, INFO_FLAG_CMDLINE) <==> hasCmdline
    ensures !BitSet(f, 0x2) && f < 0x8  // no other bit is set
  {
    var cmdlineBit := if hasCmdline then INFO_FLAG_CMDLINE else 0;
    cmdlineBit + INFO_FLAG_MEMORY
  }

  /** `(uint32_t)physical_load`: the guest address the image is copied to. */
  function LoadAddr(plan: LoadPlan): nat {
    Wrap32(plan.physicalLoad)
  }

  /** Guest address of the information table: right after the image. */
  function InfoAddr(plan: LoadPlan): nat {
    LoadAddr(plan) + plan.imageLength
  }

  /** Bytes the command line occupies in guest memory, terminator included. */
  function CmdlineSize(cmdline: Option<seq<byte>>): nat {
    if cmdline.Some? then |cmdline.value| + 1 else 0
  }

  /** One past the last guest address the bootstrap writes. */
  function Footprint(plan: LoadPlan, cmdline: Option<seq<byte>>): nat {
    InfoAddr(plan) + INFO_SIZE + CmdlineSize(cmdline)
  }

  /** The copy of `multiboot` succeeds: the image is not empty and lies
      inside the file. Only then does anything reach guest memory. */
  predicate CopySucceeds(file: seq<byte>, plan: LoadPlan) {
    0 < plan.imageLength && plan.imageLoad + plan.imageLength <= |file|
  }

  /** `fseek` to `image_load` then one `fread` of `image_length` bytes into
      guest memory at the load address. `fread` reports no item for a zero
      item size, so an empty image fails as a short read does. The image
      must fit in guest memory only when the copy can succeed. */
  function CopyImage(file: seq<byte>, plan: LoadPlan, mem: seq<byte>): (r: Result<seq<byte>>)
    requires CopySucceeds(file, plan) ==> LoadAddr(plan) + plan.imageLength <= |mem|
    ensures r.Ok? <==> 0 < plan.imageLength && plan.imageLoad + plan.imageLength <= |file|
    ensures r.Err? ==> (plan.imageLength == 0 <==> r.error == EmptyRead(plan.imageLoad))
    ensures r.Err? && 0 < plan.imageLength ==> r.error == ShortRead(plan.imageLoad, plan.imageLength)
    ensures r.Ok? ==> |r.value| == |mem|
  {
    if plan.imageLength == 0 then
      Err(EmptyRead(plan.imageLoad))
    else if |file| < plan.imageLoad + plan.imageLength then
      Err(ShortRead(plan.imageLoad, plan.imageLength))
    else
      Ok(WriteBytes(mem, LoadAddr(plan), file[plan.imageLoad..plan.imageLoad + plan.imageLength]))
  }

  /** Byte `i` of the copied range, on its own. */
  lemma CopyImageByte(file: seq<byte>, plan: LoadPlan, mem: seq<byte>, i: nat)
    requires LoadAddr(plan) + plan.imageLength <= |mem|
    requires CopyImage(file, plan, mem).Ok?
    requires LoadAddr(plan) <= i < InfoAddr(plan)
    ensures CopyImage(file, plan, mem).value[i] == file[plan.imageLoad + (i - LoadAddr(plan))]
  {
  }

  /** The table the guest finds at `t` after `WriteInfo`, given the table
      bytes `before` held there: flags, `mem_lower`, `mem_upper` and (with
      a command line) `cmdline_addr` are set; `boot_device`, `mods_count`,
      `mods_addr` and, without a command line, `cmdline_addr` are never
      written and keep their earlier contents. */
  function ExpectedInfo(before: MultibootInfo, t: nat, lowMemSize: nat, hasCmdline: bool): MultibootInfo {
    MultibootInfo(
      InfoFlags(hasCmdline), MEM_LOWER_VALUE, Wrap32(lowMemSize), before.bootDevice,
      if hasCmdline then Wrap32(t + INFO_SIZE) else before.cmdlineAddr,
      before.modsCount, before.modsAddr)
  }

  /** `strcpy` of the command line to the address right after the table
      at `t`, then `cmdline_addr` set to that address. */
  function WriteCmdline(mem: seq<byte>, t: nat, c: seq<byte>): (r: seq<byte>)
    requires t + INFO_SIZE + |c| + 1 <= |mem|
    ensures |r| == |mem|
    ensures U32At(r, t + INFO_CMDLINE) == Wrap32(t + INFO_SIZE)
  {
    var s := WriteBytes(mem, t + INFO_SIZE, c + [0]);
    WriteU32(s, t + INFO_CMDLINE, Wrap32(t + INFO_SIZE))
  }

  /** The command-line stores leave the other table words unchanged. */
  lemma WriteCmdlineKeepsWord(mem: seq<byte>, t: nat, c: seq<byte>, a: nat)
    requires t + INFO_SIZE + |c| + 1 <= |mem|
    requires a + 4 <= t + INFO_CMDLINE || (t + INFO_CMDLINE + 4 <= a && a + 4 <= t + INFO_SIZE)
    ensures U32At(WriteCmdline(mem, t, c), a) == U32At(mem, a)
  {
    var s := WriteBytes(mem, t + INFO_SIZE, c + [0]);
    WriteBytesKeepsWord(mem, t + INFO_SIZE, c + [0], a);
    WriteU32KeepsWord(s, t + INFO_CMDLINE, Wrap32(t + INFO_SIZE), a);
  }

  /** The first stores of `multiboot` into the table at guest address `t`:
      flags zeroed, then the command line and its address. */
  function InfoHead(mem: seq<byte>, t: nat, cmdline: Option<seq<byte>>): (r: seq<byte>)
    requires t + INFO_SIZE + CmdlineSize(cmdline) <= |mem|
    ensures |r| == |mem|
    ensures U32At(r, t + INFO_FLAGS) == 0
    ensures cmdline.Some? ==> U32At(r, t + INFO_CMDLINE) == Wrap32(t + INFO_SIZE)
  {
    var m := WriteU32(mem, t + INFO_FLAGS, 0);
    if cmdline.Some? then
      WriteCmdlineKeepsWord(m, t, cmdline.value, t + INFO_FLAGS);
      WriteCmdline(m, t, cmdline.value)
    else m
  }

  /** The last stores: the final flags, `mem_lower` and `mem_upper`. */
  function InfoTail(mem: seq<byte>, t: nat, hasCmdline: bool, lowMemSize: nat): (r: seq<byte>)
    requires t + INFO_SIZE <= |mem|
    ensures |r| == |mem|
    ensures U32At(r, t + INFO_FLAGS) == InfoFlags(hasCmdline)
    ensures U32At(r, t + INFO_MEM_LOWER) == MEM_LOWER_VALUE
    ensures U32At(r, t + INFO_MEM_UPPER) == Wrap32(lowMemSize)
  {
    var m1 := WriteU32(mem, t + INFO_FLAGS, InfoFlags(hasCmdline));
    var m2 := WriteU32(m1, t + INFO_MEM_LOWER, MEM_LOWER_VALUE);
    WriteU32KeepsWord(m1, t + INFO_MEM_LOWER, MEM_LOWER_VALUE, t + INFO_FLAGS);
    WriteU32KeepsWord(m2, t + INFO_MEM_UPPER, Wrap32(lowMemSize), t + INFO_FLAGS);
    WriteU32KeepsWord(m2, t + INFO_MEM_UPPER, Wrap32(lowMemSize), t + INFO_MEM_LOWER);
    WriteU32(m2, t + INFO_MEM_UPPER, Wrap32(lowMemSize))
  }

  /** The stores of `multiboot` into the table at guest address `t` and
      the command line right after it, in source order. */
  function WriteInfo(mem: seq<byte>, t: nat, cmdline: Option<seq<byte>>, lowMemSize: nat): (r: seq<byte>)
    requires t + INFO_SIZE + CmdlineSize(cmdline) <= |mem|
    ensures |r| == |mem|
    ensures U32At(r, t + INFO_FLAGS) == InfoFlags(cmdline.Some?)
    ensures U32At(r, t + INFO_MEM_LOWER) == MEM_LOWER_VALUE
    ensures U32At(r, t + INFO_MEM_UPPER) == Wrap32(lowMemSize)
    ensures cmdline.Some? ==> U32At(r, t + INFO_CMDLINE) == Wrap32(t + INFO_SIZE)
  {
    var h := InfoHead(mem, t, cmdline);
    InfoTailKeepsWord(h, t, cmdline.Some?, lowMemSize, t + INFO_CMDLINE);
    InfoTail(h, t, cmdline.Some?, lowMemSize)
  }

  /** The first stores leave `boot_device`, `mods_count`, `mods_addr` and,
      without a command line, `cmdline_addr` alone; with one, they set
      `cmdline_addr` to the address right after the table. */
  lemma InfoHeadWords(mem: seq<byte>, t: nat, cmdline: Option<seq<byte>>, a: nat)
    requires t + INFO_SIZE + CmdlineSize(cmdline) <= |mem|
    requires || a == t + INFO_BOOT_DEVICE || a == t + INFO_MODS_COUNT || a == t + INFO_MODS_ADDR
             || a == t + INFO_CMDLINE
    ensures a == t + INFO_CMDLINE && cmdline.Some? ==> U32At(InfoHead(mem, t, cmdline), a) == Wrap32(t + INFO_SIZE)
    ensures a != t + INFO_CMDLINE || cmdline.None? ==> U32At(InfoHead(mem, t, cmdline), a) == U32At(mem, a)
  {
    var m := WriteU32(mem, t + INFO_FLAGS, 0);
    WriteU32KeepsWord(mem, t + INFO_FLAGS, 0, a);
    if cmdline.Some? && a != t + INFO_CMDLINE {
      WriteCmdlineKeepsWord(m, t, cmdline.value, a);
    }
  }

  /** The last stores leave every word from `boot_device` on alone. */
  lemma InfoTailKeepsWord(mem: seq<byte>, t: nat, hasCmdline: bool, lowMemSize: nat, a: nat)
    requires t + INFO_SIZE <= |mem|
    requires t + INFO_BOOT_DEVICE <= a && a + 4 <= |mem|
    ensures U32At(InfoTail(mem, t, hasCmdline, lowMemSize), a) == U32At(mem, a)
  {
    var m1 := WriteU32(mem, t + INFO_FLAGS, InfoFlags(hasCmdline));
    var m2 := WriteU32(m1, t + INFO_MEM_LOWER, MEM_LOWER_VALUE);
    WriteU32KeepsWord(mem, t + INFO_FLAGS, InfoFlags(hasCmdline), a);
    WriteU32KeepsWord(m1, t + INFO_MEM_LOWER, MEM_LOWER_VALUE, a);
    WriteU32KeepsWord(m2, t + INFO_MEM_UPPER, Wrap32(lowMemSize), a);
  }

  /** The last stores change no byte outside the table. */
  lemma InfoTailKeepsByte(mem: seq<byte>, t: nat, hasCmdline: bool, lowMemSize: nat, i: nat)
    requires t + INFO_SIZE <= |mem|
    requires i < |mem| && !(t <= i < t + INFO_SIZE)
    ensures InfoTail(mem, t, hasCmdline, lowMemSize)[i] == mem[i]
  {
    var m1 := WriteU32(mem, t + INFO_FLAGS, InfoFlags(hasCmdline));
    var m2 := WriteU32(m1, t + INFO_MEM_LOWER, MEM_LOWER_VALUE);
    assert m1[i] == mem[i];
    assert m2[i] == m1[i];
  }

  /** The table the guest finds at `t` after the stores: flags, `mem_lower`,
      `mem_upper` and (with a command line) `cmdline_addr` hold the stored
      values, and every other field keeps what `mem` held there. */
  lemma WriteInfoTable(mem: seq<byte>, t: nat, cmdline: Option<seq<byte>>, lowMemSize: nat)
    requires t + INFO_SIZE + CmdlineSize(cmdline) <= |mem|
    ensures DecodeInfo(WriteInfo(mem, t, cmdline, lowMemSize), t)
            == ExpectedInfo(DecodeInfo(mem, t), t, lowMemSize, cmdline.Some?)
  {
    var h := InfoHead(mem, t, cmdline);
    InfoTailKeepsWord(h, t, cmdline.Some?, lowMemSize, t + INFO_BOOT_DEVICE);
    InfoTailKeepsWord(h, t, cmdline.Some?, lowMemSize, t + INFO_CMDLINE);
    InfoTailKeepsWord(h, t, cmdline.Some?, lowMemSize, t + INFO_MODS_COUNT);
    InfoTailKeepsWord(h, t, cmdline.Some?, lowMemSize, t + INFO_MODS_ADDR);
    InfoHeadWords(mem, t, cmdline, t + INFO_BOOT_DEVICE);
    InfoHeadWords(mem, t, cmdline, t + INFO_CMDLINE);
    InfoHeadWords(mem, t, cmdline, t + INFO_MODS_COUNT);
    InfoHeadWords(mem, t, cmdline, t + INFO_MODS_ADDR);
  }

  /** The table stores leave every byte outside the table and the command
      line as it was. */
  lemma WriteInfoFrame(mem: seq<byte>, t: nat, cmdline: Option<seq<byte>>, lowMemSize: nat, i: nat)
    requires t + INFO_SIZE + CmdlineSize(cmdline) <= |mem|
    requires i < |mem| && !(t <= i < t + INFO_SIZE + CmdlineSize(cmdline))
    ensures WriteInfo(mem, t, cmdline, lowMemSize)[i] == mem[i]
  {
    var h := InfoHead(mem, t, cmdline);
    InfoTailKeepsByte(h, t, cmdline.Some?, lowMemSize, i);
    var m := WriteU32(mem, t + INFO_FLAGS, 0);
    assert h[i] == m[i] == mem[i];
  }

  /** The command line and its NUL, stored right after the table, survive
      the later flag and memory-size stores: byte `i` of that range. */
  lemma WriteInfoCmdline(mem: seq<byte>, t: nat, c: seq<byte>, lowMemSize: nat, i: nat)
    requires t + INFO_SIZE + |c| + 1 <= |mem|
    requires t + INFO_SIZE <= i <= t + INFO_SIZE + |c|
    ensures WriteInfo(mem, t, Some(c), lowMemSize)[i] == (c + [0])[i - (t + INFO_SIZE)]
  {
    var h := InfoHead(mem, t, Some(c));
    InfoTailKeepsByte(h, t, true, lowMemSize, i);
    var m := WriteU32(mem, t + INFO_FLAGS, 0);
    var s := WriteBytes(m, t + INFO_SIZE, c + [0]);
    assert h[i] == s[i];
  }

  /** `multiboot`: copy the image, fill the table and command line, and
      set the vCPU; on success the entry address is returned. */
  function Bootstrap(file: seq<byte>, plan: LoadPlan, cmdline: Option<seq<byte>>, mem: seq<byte>): (r: Result<Boot>)
    requires cmdline.Some? ==> IsCString(cmdline.value)
    requires CopySucceeds(file, plan) ==> Footprint(plan, cmdline) <= |mem|
    ensures r.Ok? <==> 0 < plan.imageLength && plan.imageLoad + plan.imageLength <= |file|
    ensures r.Err? ==> r == CopyImage(file, plan, mem).PropagateFailure()
    ensures r.Ok? ==> |r.value.mem| == |mem|
    ensures r.Ok? ==> r.value.entry == plan.memHeader.entryAddr == r.value.cpu.rip
    ensures r.Ok? ==> MeetsMultibootMachineState(r.value.cpu, InfoAddr(plan))
  {
    var loaded :- CopyImage(file, plan, mem);
    var t := InfoAddr(plan);
    var m := WriteInfo(loaded, t, cmdline, |mem|);
    Ok(Boot(m, EntryState(t, plan.memHeader.entryAddr), plan.memHeader.entryAddr))
  }

  /** On a successful copy, the bootstrap is the table stores on the
      loaded memory and the entry state. */
  lemma BootstrapSteps(file: seq<byte>, plan: LoadPlan, cmdline: Option<seq<byte>>, mem: seq<byte>)
    requires cmdline.Some? ==> IsCString(cmdline.value)
    requires Footprint(plan, cmdline) <= |mem|
    requires CopyImage(file, plan, mem).Ok?
    ensures Bootstrap(file, plan, cmdline, mem)
            == Ok(Boot(WriteInfo(CopyImage(file, plan, mem).value, InfoAddr(plan), cmdline, |mem|),
                       EntryState(InfoAddr(plan), plan.memHeader.entryAddr), plan.memHeader.entryAddr))
  {
  }

  /** Guest byte `i` after a successful bootstrap is byte `i` of the table
      stores applied to the copied memory. */
  lemma BootstrapByte(file: seq<byte>, plan: LoadPlan, cmdline: Option<seq<byte>>, mem: seq<byte>, i: nat)
    requires cmdline.Some? ==> IsCString(cmdline.value)
    requires Footprint(plan, cmdline) <= |mem|
    requires Bootstrap(file, plan, cmdline, mem).Ok?
    requires i < |mem|
    ensures Bootstrap(file, plan, cmdline, mem).value.mem[i]
            == WriteInfo(CopyImage(file, plan, mem).value, InfoAddr(plan), cmdline, |mem|)[i]
  {
    BootstrapSteps(file, plan, cmdline, mem);
  }

  /** The table read at `t` depends only on the 28 bytes there. */
  lemma DecodeInfoFrame(a: seq<byte>, b: seq<byte>, t: nat)
    requires t + INFO_SIZE <= |a| && t + INFO_SIZE <= |b|
    requires forall i :: t <= i < t + INFO_SIZE ==> a[i] == b[i]
    ensures DecodeInfo(a, t) == DecodeInfo(b, t)
  {
  }

  /** The table stores after the copy leave the copied image alone: guest
      byte `i` of `[P, P + len)` is the byte the copy put there. */
  lemma BootstrapKeepsCopy(file: seq<byte>, plan: LoadPlan, cmdline: Option<seq<byte>>, mem: seq<byte>, i: nat)
    requires cmdline.Some? ==> IsCString(cmdline.value)
    requires Footprint(plan, cmdline) <= |mem|
    requires Bootstrap(file, plan, cmdline, mem).Ok?
    requires LoadAddr(plan) <= i < InfoAddr(plan)
    ensures Bootstrap(file, plan, cmdline, mem).value.mem[i] == CopyImage(file, plan, mem).value[i]
  {
    BootstrapSteps(file, plan, cmdline, mem);
    WriteInfoFrame(CopyImage(file, plan, mem).value, InfoAddr(plan), cmdline, |mem|, i);
  }

  /** The loaded image: guest byte `i` of `[P, P + len)`, the range that
      ends where the table starts, is file byte `image_load + (i - P)`. */
  lemma BootstrapLoadsImage(file: seq<byte>, plan: LoadPlan, cmdline: Option<seq<byte>>, mem: seq<byte>, i: nat)
    requires cmdline.Some? ==> IsCString(cmdline.value)
    requires Footprint(plan, cmdline) <= |mem|
    requires Bootstrap(file, plan, cmdline, mem).Ok?
    requires LoadAddr(plan) <= i < InfoAddr(plan)
    ensures Bootstrap(file, plan, cmdline, mem).value.mem[i] == file[plan.imageLoad + (i - LoadAddr(plan))]
  {
    BootstrapKeepsCopy(file, plan, cmdline, mem, i);
    CopyImageByte(file, plan, mem, i);
  }

  /** The table the guest finds at `t` after the stores, given the table
      `before` that memory of `memSize` bytes held there: flags 0x1 or 0x5,
      `mem_lower` = 640*1024, `mem_upper` = the low-memory size,
      `cmdline_addr` = the address right after the table when there is a
      command line, and the unwritten fields as they were. */
  predicate TableAsGuestReads(info: MultibootInfo, before: MultibootInfo, t: nat,
                              cmdline: Option<seq<byte>>, memSize: nat)
  {
    && info.flags == (if cmdline.Some? then 0x5 else 0x1)
    && info.memLower == 655360
    && (memSize < U32_LIMIT ==> info.memUpper == memSize)
    && (cmdline.Some? && memSize <= U32_LIMIT ==> info.cmdlineAddr == t + INFO_SIZE)
    && (cmdline.None? ==> info.cmdlineAddr == before.cmdlineAddr)
    && info.bootDevice == before.bootDevice
    && info.modsCount == before.modsCount
    && info.modsAddr == before.modsAddr
  }

  /** The table stores on a memory `loaded` whose table bytes are those of
      `mem`: the fields the guest reads, in terms of the table `mem` held. */
  lemma WriteInfoFields(loaded: seq<byte>, mem: seq<byte>, t: nat, cmdline: Option<seq<byte>>)
    requires t + INFO_SIZE + CmdlineSize(cmdline) <= |loaded| == |mem|
    requires forall i :: t <= i < t + INFO_SIZE ==> loaded[i] == mem[i]
    ensures var info := DecodeInfo(WriteInfo(loaded, t, cmdline, |mem|), t);
            TableAsGuestReads(info, DecodeInfo(mem, t), t, cmdline, |mem|)
  {
    WriteInfoTable(loaded, t, cmdline, |mem|);
    DecodeInfoFrame(loaded, mem, t);
  }

  /** `WriteInfoFields` after a successful copy: the copy ends where the
      table starts, so the table bytes are still those of `mem`. */
  lemma CopyThenTableFields(file: seq<byte>, plan: LoadPlan, cmdline: Option<seq<byte>>, mem: seq<byte>)
    requires Footprint(plan, cmdline) <= |mem|
    requires CopyImage(file, plan, mem).Ok?
    ensures var t := InfoAddr(plan);
            var info := DecodeInfo(WriteInfo(CopyImage(file, plan, mem).value, t, cmdline, |mem|), t);
            TableAsGuestReads(info, DecodeInfo(mem, t), t, cmdline, |mem|)
  {
    WriteInfoFields(CopyImage(file, plan, mem).value, mem, InfoAddr(plan), cmdline);
  }

  /** The table the guest reads at RBX: flags 0x1 or 0x5, `mem_lower` =
      640*1024, `mem_upper` = the low-memory size, `cmdline_addr` = the
      address right after the table when there is a command line, and the
      unwritten fields as they were before the bootstrap. */
  lemma BootstrapInfoTable(file: seq<byte>, plan: LoadPlan, cmdline: Option<seq<byte>>, mem: seq<byte>)
    requires cmdline.Some? ==> IsCString(cmdline.value)
    requires Footprint(plan, cmdline) <= |mem|
    requires Bootstrap(file, plan, cmdline, mem).Ok?
    ensures var b := Bootstrap(file, plan, cmdline, mem).value;
            var t := InfoAddr(plan);
            var info := DecodeInfo(b.mem, t);
            && b.cpu.rbx == t
            && TableAsGuestReads(info, DecodeInfo(mem, t), t, cmdline, |mem|)
  {
    BootstrapSteps(file, plan, cmdline, mem);
    CopyThenTableFields(file, plan, cmdline, mem);
  }

  /** The command line: byte `i` of the range right after the table, at the
      address `BootstrapInfoTable` finds in `cmdline_addr`, is the matching
      byte of the string, or the terminating NUL just past its end. */
  lemma BootstrapCommandLine(file: seq<byte>, plan: LoadPlan, c: seq<byte>, mem: seq<byte>, i: nat)
    requires IsCString(c)
    requires Footprint(plan, Some(c)) <= |mem|
    requires Bootstrap(file, plan, Some(c), mem).Ok?
    requires InfoAddr(plan) + INFO_SIZE <= i <= InfoAddr(plan) + INFO_SIZE + |c|
    ensures Bootstrap(file, plan, Some(c), mem).value.mem[i] == (c + [0])[i - (InfoAddr(plan) + INFO_SIZE)]
  {
    BootstrapByte(file, plan, Some(c), mem, i);
    WriteInfoCmdline(CopyImage(file, plan, mem).value, InfoAddr(plan), c, |mem|, i);
  }

  /** Nothing outside the image, the table and the command line changes. */
  lemma BootstrapFrame(file: seq<byte>, plan: LoadPlan, cmdline: Option<seq<byte>>, mem: seq<byte>, i: nat)
    requires cmdline.Some? ==> IsCString(cmdline.value)
    requires Footprint(plan, cmdline) <= |mem|
    requires Bootstrap(file, plan, cmdline, mem).Ok?
    requires i < |mem| && !(LoadAddr(plan) <= i < Footprint(plan, cmdline))
    ensures Bootstrap(file, plan, cmdline, mem).value.mem[i] == mem[i]
  {
    var loaded := CopyImage(file, plan, mem).value;
    BootstrapSteps(file, plan, cmdline, mem);
    assert loaded[i] == mem[i];
    WriteInfoFrame(loaded, InfoAddr(plan), cmdline, |mem|, i);
  }

  /** The loader as the VM boot sequence runs it: `multiboot_init` on the
      kernel file, then `multiboot`. A failed resolution writes nothing. */
  function Load(file: seq<byte>, cmdline: Option<seq<byte>>, mem: seq<byte>): (r: Result<Boot>)
    requires cmdline.Some? ==> IsCString(cmdline.value)
    requires Resolve(file).Ok? && CopySucceeds(file, Resolve(file).value) ==>
               Footprint(Resolve(file).value, cmdline) <= |mem|
    ensures Resolve(file).Err? ==> r == Err(Resolve(file).error)
    ensures Resolve(file).Ok? ==> (r.Ok? <==> CopySucceeds(file, Resolve(file).value))
    ensures r.Ok? ==> |r.value.mem| == |mem|
    ensures r.Ok? ==> r.value.entry == Resolve(file).value.memHeader.entryAddr
    ensures r.Ok? ==> MeetsMultibootMachineState(r.value.cpu, InfoAddr(Resolve(file).value))
  {
    var plan :- Resolve(file);
    Bootstrap(file, plan, cmdline, mem)
  }

  /** Once resolution has produced a plan, loading is the bootstrap of
      that plan. */
  lemma LoadResolved(file: seq<byte>, plan: LoadPlan, cmdline: Option<seq<byte>>, mem: seq<byte>)
    requires cmdline.Some? ==> IsCString(cmdline.value)
    requires Resolve(file) == Ok(plan)
    requires CopySucceeds(file, plan) ==> Footprint(plan, cmdline) <= |mem|
    ensures Load(file, cmdline, mem) == Bootstrap(file, plan, cmdline, mem)
  {
  }

  /** A header with bit 16 clear is accepted by `multiboot_init`, but the
      zero-length copy of `multiboot` then fails: such a kernel never
      boots. */
  lemma LoadWithoutAddressFieldsFails(file: seq<byte>, cmdline: Option<seq<byte>>, mem: seq<byte>, k: nat)
    requires cmdline.Some? ==> IsCString(cmdline.value)
    requires Scan(file) == Ok(k)
    requires !HasAddressFields(U32At(file, k + 4))
    ensures Resolve(file).Ok?
    ensures Load(file, cmdline, mem) == Err(EmptyRead(0))
  {
    ResolveWithoutAddressFields(file, k);
  }

  /** A resolved plan whose image is not inside the file fails to load with
      a short read of the whole image at `image_load`, whatever the guest
      memory: the failing `fread` is the last step. */
  lemma LoadShortCopyFails(file: seq<byte>, cmdline: Option<seq<byte>>, mem: seq<byte>)
    requires cmdline.Some? ==> IsCString(cmdline.value)
    requires Resolve(file).Ok?
    requires 0 < Resolve(file).value.imageLength
    requires |file| < Resolve(file).value.imageLoad + Resolve(file).value.imageLength
    ensures Load(file, cmdline, mem)
            == Err(ShortRead(Resolve(file).value.imageLoad, Resolve(file).value.imageLength))
  {
  }

  /** The bootstrap of a plan whose positive length runs past the end of
      the file fails with a short read, whatever the size of memory. */
  lemma BootstrapShortCopyFails(file: seq<byte>, plan: LoadPlan, cmdline: Option<seq<byte>>, mem: seq<byte>)
    requires cmdline.Some? ==> IsCString(cmdline.value)
    requires 0 < plan.imageLength && |file| < plan.imageLoad + plan.imageLength
    ensures Bootstrap(file, plan, cmdline, mem) == Err(ShortRead(plan.imageLoad, plan.imageLength))
  {
  }

  /** A kernel whose derived copy start lies past the end of the file
      fails to load with a short read; nothing is copied. */
  lemma LoadPastEndOfFileFails(file: seq<byte>, k: nat, cmdline: Option<seq<byte>>, mem: seq<byte>)
    requires cmdline.Some? ==> IsCString(cmdline.value)
    requires Resolve(file).Ok? && CopySucceeds(file, Resolve(file).value) ==>
               Footprint(Resolve(file).value, cmdline) <= |mem|
    requires Scan(file) == Ok(k)
    requires HasAddressFields(U32At(file, k + 4))
    requires k + HEADER_SIZE + MEM_HEADER_SIZE <= |file| < U64_LIMIT
    requires var mh := FileMemHeader(file, k);
             && mh.loadEndAddr == 0
             && |file| < Wrap64(mh.loadAddr + k - mh.headerAddr)
    ensures var mh := FileMemHeader(file, k);
            var start := Wrap64(mh.loadAddr + k - mh.headerAddr);
            Load(file, cmdline, mem) == Err(ShortRead(start, U64_LIMIT + |file| - start))
  {
    ResolvePastEndOfFile(file, k);
    var p := Resolve(file).value;
    LoadResolved(file, p, cmdline, mem);
    BootstrapShortCopyFails(file, p, cmdline, mem);
  }

  /** A header address past `load_addr + O` makes the copy start negative;
      it wraps to `2^64 + L + O - H`, past the end of any file shorter than
      2^64 - 2^32 bytes, and the load fails with a short read of
      `|file| + H - L - O` bytes there. */
  lemma LoadNegativeStartFails(file: seq<byte>, k: nat, cmdline: Option<seq<byte>>, mem: seq<byte>)
    requires cmdline.Some? ==> IsCString(cmdline.value)
    requires Resolve(file).Ok? && CopySucceeds(file, Resolve(file).value) ==>
               Footprint(Resolve(file).value, cmdline) <= |mem|
    requires Scan(file) == Ok(k)
    requires HasAddressFields(U32At(file, k + 4))
    requires k + HEADER_SIZE + MEM_HEADER_SIZE <= |file| < U64_LIMIT - U32_LIMIT
    requires var mh := FileMemHeader(file, k);
             && mh.loadEndAddr == 0
             && mh.loadAddr + k < mh.headerAddr
    ensures var mh := FileMemHeader(file, k);
            Load(file, cmdline, mem)
              == Err(ShortRead(U64_LIMIT + mh.loadAddr + k - mh.headerAddr,
                               |file| + mh.headerAddr - mh.loadAddr - k))
  {
    var mh := FileMemHeader(file, k);
    var start := mh.loadAddr + k - mh.headerAddr;
    Wrap64Borrow(start);
    assert |file| < Wrap64(start) == U64_LIMIT + start;
    LoadPastEndOfFileFails(file, k, cmdline, mem);
    assert U64_LIMIT + |file| - Wrap64(start) == |file| + mh.headerAddr - mh.loadAddr - k;
  }

  /** A kernel with `0 < load_end_addr < load_addr` asks for `2^32 + E - L`
      bytes from file offset 0; when the file is shorter, it fails to load
      with a short read. */
  lemma LoadBackwardsRangeFails(file: seq<byte>, k: nat, cmdline: Option<seq<byte>>, mem: seq<byte>)
    requires cmdline.Some? ==> IsCString(cmdline.value)
    requires Resolve(file).Ok? && CopySucceeds(file, Resolve(file).value) ==>
               Footprint(Resolve(file).value, cmdline) <= |mem|
    requires Scan(file) == Ok(k)
    requires HasAddressFields(U32At(file, k + 4))
    requires k + HEADER_SIZE + MEM_HEADER_SIZE <= |file|
    requires var mh := FileMemHeader(file, k);
             && 0 < mh.loadEndAddr < mh.loadAddr
             && |file| < U32_LIMIT + mh.loadEndAddr - mh.loadAddr
    ensures var mh := FileMemHeader(file, k);
            Load(file, cmdline, mem) == Err(ShortRead(0, U32_LIMIT + mh.loadEndAddr - mh.loadAddr))
  {
    ResolveExplicitLength(file, k);
    LoadShortCopyFails(file, cmdline, mem);
  }
}

=== FILE: HeaderScan.dfy ===
/** The header search of `multiboot_init`: the kernel file is read one
    `uint32_t` at a time from offset 0; a word equal to the magic is
    followed by a flags and a checksum read, and the triple is accepted when
    the three words add up to zero in `uint32_t` arithmetic. A rejected
    triple rewinds the file by 8 bytes, so the next candidate is the word
    right after the rejected magic. The loop condition never becomes false
    (`found` is never set), so the scan ends only on an accepted triple or
    on a short read: the declared 8192-byte bound is not applied. */
module HeaderScan {
  import opened Bytes
  import opened MultibootFormat

  /** The validity test of a triple: `checksum + flags + magic == 0` in
      `uint32_t` arithmetic, i.e. the sum reduced modulo 2^32. */
  predicate ChecksumOk(magic: nat, flags: nat, checksum: nat) {
    Wrap32(checksum + flags + magic) == 0
  }

  /** For given magic and flags exactly one 32-bit checksum passes: the
      one a kernel computes as the negated sum of the other two words. */
  lemma ChecksumIsNegatedSum(magic: nat, flags: nat, checksum: nat)
    requires magic < U32_LIMIT && flags < U32_LIMIT && checksum < U32_LIMIT
    ensures ChecksumOk(magic, flags, checksum) <==> checksum == Wrap32(-(magic + flags))
  {
    var w := Wrap32(-(magic + flags));
    assert (-(magic + flags) - w) % U32_LIMIT == 0;
    if ChecksumOk(magic, flags, checksum) {
      assert (checksum + flags + magic) % U32_LIMIT == 0;
      assert (checksum - w) % U32_LIMIT == 0;
    } else {
      assert (checksum + flags + magic) % U32_LIMIT != 0;
    }
  }

  /** A valid triple starts at file offset `k`: the word there is the
      magic, the flags and checksum words are present, and the checksum
      test passes. */
  predicate HeaderAt(file: seq<byte>, k: nat) {
    && k + HEADER_SIZE <= |file|
    && U32At(file, k) == HEADER_MAGIC
    && ChecksumOk(U32At(file, k), U32At(file, k + 4), U32At(file, k + 8))
  }

  /** No word-aligned offset in `[from, to)` starts a valid triple. */
  predicate NoHeaderIn(file: seq<byte>, from: nat, to: nat) {
    forall j: nat :: from <= j < to && j % 4 == 0 ==> !HeaderAt(file, j)
  }

  /** The read that failed really ran past the end of the file. */
  predicate IsShortRead(e: LoadError, file: seq<byte>) {
    e.ShortRead? && e.wanted == 4 && |file| < e.offset + e.wanted
  }

  /** Too few bytes remain at `pos` for any triple. */
  lemma NoHeaderNearEnd(file: seq<byte>, pos: nat)
    requires |file| < pos + HEADER_SIZE
    ensures NoHeaderIn(file, pos, |file|)
  {
  }

  /** A rejected aligned candidate extends a header-free range one word down. */
  lemma NoHeaderStep(file: seq<byte>, pos: nat, to: nat)
    requires pos % 4 == 0 && !HeaderAt(file, pos)
    requires NoHeaderIn(file, pos + 4, to)
    ensures NoHeaderIn(file, pos, to)
  {
    forall j: nat | pos <= j < to && j % 4 == 0
      ensures !HeaderAt(file, j)
    {
      if j < pos + 4 {
        var a, b := j / 4, pos / 4;
        assert j == 4 * a && pos == 4 * b;
        assert b <= a < b + 1;
      }
    }
  }

  /** The end of the header-free range a scan result certifies. */
  function ScannedUpTo(file: seq<byte>, r: Result<nat>): nat {
    if r.Ok? then r.value else |file|
  }

  /** The scan continued from file position `pos`. */
  function ScanFrom(file: seq<byte>, pos: nat): (r: Result<nat>)
    requires pos % 4 == 0
    ensures r.Ok? ==> && pos <= r.value && r.value % 4 == 0
                      && HeaderAt(file, r.value) && NoHeaderIn(file, pos, r.value)
    ensures r.Err? ==> NoHeaderIn(file, pos, |file|) && IsShortRead(r.error, file)
    decreases |file| - pos
  {
    if |file| < pos + 4 then
      NoHeaderNearEnd(file, pos);
      Err(ShortRead(pos, 4))
    else if U32At(file, pos) != HEADER_MAGIC then
      var r := ScanFrom(file, pos + 4);
      NoHeaderStep(file, pos, ScannedUpTo(file, r));
      r
    else if |file| < pos + 8 then
      NoHeaderNearEnd(file, pos);
      Err(ShortRead(pos + 4, 4))
    else if |file| < pos + 12 then
      NoHeaderNearEnd(file, pos);
      Err(ShortRead(pos + 8, 4))
    else if ChecksumOk(U32At(file, pos), U32At(file, pos + 4), U32At(file, pos + 8)) then
      Ok(pos)
    else
      var r := ScanFrom(file, pos + 4);
      NoHeaderStep(file, pos, ScannedUpTo(file, r));
      r
  }

  /** The header search from the start of the file; on success, the file
      offset of the triple (`ftell(kernel) - 12`). */
  function Scan(file: seq<byte>): (r: Result<nat>)
    ensures r.Ok? ==> r.value % 4 == 0 && HeaderAt(file, r.value) && NoHeaderIn(file, 0, r.value)
    ensures r.Err? ==> NoHeaderIn(file, 0, |file|) && IsShortRead(r.error, file)
  {
    ScanFrom(file, 0)
  }

  /** The scan returns offset `k` exactly when `k` is the first word-aligned
      offset holding a valid triple. */
  lemma ScanFindsFirstHeader(file: seq<byte>, k: nat)
    ensures Scan(file) == Ok(k) <==> k % 4 == 0 && HeaderAt(file, k) && NoHeaderIn(file, 0, k)
  {
    if k % 4 == 0 && HeaderAt(file, k) && NoHeaderIn(file, 0, k) {
      match Scan(file)
      case Err(_) =>
      case Ok(k') =>
    }
  }

  /** The scan fails exactly when no word-aligned offset holds a valid
      triple, however long the file is. */
  lemma ScanFailsIffNoHeader(file: seq<byte>)
    ensures Scan(file).Err? <==> NoHeaderIn(file, 0, |file|)
  {
    match Scan(file)
    case Err(_) =>
    case Ok(k) =>
      assert k < |file|;
      assert !NoHeaderIn(file, 0, |file|);
  }

  /** The header search as the loader runs it: a file position that
      advances by one word per read, is rewound by 8 after a rejected
      triple, and a loop whose condition never turns false. */
  method FindHeader(file: seq<byte>) returns (r: Result<nat>)
    ensures r == Scan(file)
    ensures r.Ok? ==> r.value % 4 == 0 && HeaderAt(file, r.value) && NoHeaderIn(file, 0, r.value)
    ensures r.Err? ==> NoHeaderIn(file, 0, |file|)
  {
    var pos: nat := 0;
    while true
      invariant pos % 4 == 0
      invariant NoHeaderIn(file, 0, pos)
      invariant ScanFrom(file, pos) == Scan(file)
      decreases |file| - pos
    {
      if |file| < pos + 4 {
        return Err(ShortRead(pos, 4));
      }
      var magic := U32At(file, pos);
      pos := pos + 4;
      if magic == HEADER_MAGIC {
        if |file| < pos + 4 {
          return Err(ShortRead(pos, 4));
        }
        var flags := U32At(file, pos);
        pos := pos + 4;
        if |file| < pos + 4 {
          return Err(ShortRead(pos, 4));
        }
        var checksum := U32At(file, pos);
        pos := pos + 4;
        if ChecksumOk(magic, flags, checksum) {
          return Ok(pos - HEADER_SIZE);
        }
        // seek back 8 bytes: the word after the rejected magic is next
        pos := pos - 8;
      }
    }
  }

  /** The triple of the test kernel shipped with the loader (magic
      0x1BADB002, flags 0x10003, checksum 0xe4514ffb) passes the checksum
      test and asks for the address fields. */
  lemma FixtureTripleIsValid()
    ensures ChecksumOk(HEADER_MAGIC, 0x10003, 0xe4514ffb)
    ensures HasAddressFields(0x10003)
  {
  }

  /** A file whose first valid triple sits at offset 8192, after 8192 zero
      bytes, is still accepted: the `MULTIBOOT_SEARCH_END` bound is not
      enforced. */
  lemma {:induction false} NoSearchLimit(h: KernelHeader, post: seq<byte>)
    requires KernelHeaderIsU32(h) && h.magic == HEADER_MAGIC
    requires ChecksumOk(h.magic, h.flags, h.checksum)
    ensures Scan(seq(SEARCH_END, _ => 0 as byte) + EncodeKernelHeader(h) + post) == Ok(SEARCH_END)
  {
    var zeros := seq(SEARCH_END, _ => 0 as byte);
    var file := zeros + EncodeKernelHeader(h) + post;
    KernelHeaderRoundTrip(h, zeros, post);
    assert HeaderAt(file, SEARCH_END);
    forall j: nat | j < SEARCH_END && j % 4 == 0
      ensures !HeaderAt(file, j)
    {
      assert file[j] == 0 && file[j + 1] == 0 && file[j + 2] == 0 && file[j + 3] == 0;
    }
    ScanFindsFirstHeader(file, SEARCH_END);
  }
}

=== FILE: LoadPlanning.dfy ===
/** The second half of `multiboot_init`: once the triple is found, the
    address fields are read when flags bit 16 asks for them, and the loader
    derives the file offset to copy from (`image_load`), the number of
    bytes to copy (`image_length`) and the guest-physical load address
    (`physical_load`). The source passes these to `multiboot` through
    zero-initialised statics; here they are one `LoadPlan` value, whose
    fields keep 0 exactly where the source never assigns the static. */
module LoadPlanning {
  import opened Bytes
  import opened MultibootFormat
  import opened HeaderScan

  /** The loader's statics after `multiboot_init` returns. */
  datatype LoadPlan = LoadPlan(
    headerOffset: nat,      // image_header: file offset of the triple
    header: KernelHeader,   // header
    memHeader: MemHeader,   // mem_header, with load_end_addr possibly rewritten
    imageOffset: nat,       // image_offset
    imageLoad: nat,         // image_load: file offset the copy starts from
    imageLength: nat,       // image_length: bytes to copy
    physicalLoad: nat,      // physical_load: guest address the copy goes to
    physicalHeader: nat)    // physical_header: recorded, never consumed

  /** Both halves of the address-field branch, given the triple at `k`
      and the address fields `mh` read right after it. */
  function PlanFromAddressFields(file: seq<byte>, k: nat, header: KernelHeader, mh: MemHeader): (p: LoadPlan)
    requires MemHeaderIsU32(mh)
    ensures p.headerOffset == k && p.header == header
    ensures p.physicalLoad < U32_LIMIT && MemHeaderIsU32(p.memHeader)
    // only `load_end_addr` may be rewritten, and afterwards it is the
    // 32-bit end of an image of `image_length` bytes at `load_addr`
    ensures p.memHeader.(loadEndAddr := mh.loadEndAddr) == mh
    ensures p.memHeader.loadEndAddr == Wrap32(mh.loadAddr + p.imageLength)
    ensures mh.loadEndAddr != 0 ==>
              && p.memHeader == mh && p.imageLength < U32_LIMIT
              && p.imageOffset == 0 && p.imageLoad == 0
              && p.physicalLoad == 0 && p.physicalHeader == 0
    ensures mh.loadEndAddr == 0 ==>
              && p.physicalLoad == mh.loadAddr && p.physicalHeader == mh.headerAddr
              && p.imageLoad < U64_LIMIT
              && (p.imageLoad <= |file| < U64_LIMIT ==> p.imageLoad + p.imageLength == |file|)
  {
    if mh.loadEndAddr == 0 then
      // the image runs to the end of the file
      var imageOffset := Wrap64(mh.headerAddr - k);
      var imageLoad := Wrap64(mh.loadAddr - imageOffset);
      var imageLength := Wrap64(|file| - imageLoad);
      var loadEnd := Wrap32(Wrap32(imageLength) + mh.loadAddr);
      Wrap32AddInner(imageLength, mh.loadAddr);
      LoadPlan(k, header, mh.(loadEndAddr := loadEnd), imageOffset, imageLoad, imageLength,
               mh.loadAddr, mh.headerAddr)
    else
      // explicit end: image_offset, image_load, physical_load and
      // physical_header are left at their initial 0
      Wrap32Sub(mh.loadEndAddr, mh.loadAddr);
      WrapAddBack(mh.loadAddr, mh.loadEndAddr);
      LoadPlan(k, header, mh, 0, 0, Wrap32(mh.loadEndAddr - mh.loadAddr), 0, 0)
  }

  /** `multiboot_init`: the header search, then the address fields. A
      clear bit 16 is not an error; the plan then keeps all-zero
      addresses and length. */
  function Resolve(file: seq<byte>): (r: Result<LoadPlan>)
    ensures r.Ok? ==> Scan(file) == Ok(r.value.headerOffset)
    ensures r.Ok? ==> r.value.header == DecodeKernelHeader(file, r.value.headerOffset)
    ensures r.Ok? ==> r.value.physicalLoad < U32_LIMIT
    ensures Scan(file).Err? ==> r == Err(Scan(file).error)
    ensures Scan(file).Ok? ==>
              var k := Scan(file).value;
              r.Err? <==> HasAddressFields(U32At(file, k + 4)) && |file| < k + HEADER_SIZE + MEM_HEADER_SIZE
    ensures r.Err? && Scan(file).Ok? ==> r.error == ShortRead(Scan(file).value + HEADER_SIZE, MEM_HEADER_SIZE)
  {
    var k :- Scan(file);
    var header := DecodeKernelHeader(file, k);
    if !HasAddressFields(header.flags) then
      Ok(LoadPlan(k, header, ZERO_MEM_HEADER, 0, 0, 0, 0, 0))
    else if |file| < k + HEADER_SIZE + MEM_HEADER_SIZE then
      Err(ShortRead(k + HEADER_SIZE, MEM_HEADER_SIZE))
    else
      Ok(PlanFromAddressFields(file, k, header, DecodeMemHeader(file, k + HEADER_SIZE)))
  }

  /** The address fields the plan was derived from, as they are in the file. */
  function FileMemHeader(file: seq<byte>, k: nat): MemHeader
    requires k + HEADER_SIZE + MEM_HEADER_SIZE <= |file|
  {
    DecodeMemHeader(file, k + HEADER_SIZE)
  }

  /** With bit 16 set and the address fields present, the plan is the one
      derived from those fields. */
  lemma ResolveUsesAddressFields(file: seq<byte>, k: nat)
    requires Scan(file) == Ok(k)
    requires HasAddressFields(U32At(file, k + 4))
    requires k + HEADER_SIZE + MEM_HEADER_SIZE <= |file|
    ensures Resolve(file) == Ok(PlanFromAddressFields(file, k, DecodeKernelHeader(file, k), FileMemHeader(file, k)))
  {
  }

  /** With bit 16 set, the plan's address fields are the five words after
      the twelve-byte header, except that a zero `load_end_addr` is
      replaced by the 32-bit end of the image in guest memory. */
  lemma ResolveDecodesAddressFields(file: seq<byte>, k: nat)
    requires Scan(file) == Ok(k)
    requires HasAddressFields(U32At(file, k + 4))
    requires k + HEADER_SIZE + MEM_HEADER_SIZE <= |file|
    ensures Resolve(file).Ok?
    ensures var m := Resolve(file).value.memHeader;
            && m.headerAddr == U32At(file, k + 12)
            && m.loadAddr == U32At(file, k + 16)
            && m.bssEndAddr == U32At(file, k + 24)
            && m.entryAddr == U32At(file, k + 28)
    ensures var p := Resolve(file).value;
            p.memHeader.loadEndAddr
              == if U32At(file, k + 20) != 0 then U32At(file, k + 20)
                 else Wrap32(U32At(file, k + 16) + p.imageLength)
  {
    ResolveUsesAddressFields(file, k);
    FileMemHeaderWords(file, k);
  }

  /** The address fields are the five words after the triple. */
  lemma FileMemHeaderWords(file: seq<byte>, k: nat)
    requires k + HEADER_SIZE + MEM_HEADER_SIZE <= |file|
    ensures var mh := FileMemHeader(file, k);
            && mh.headerAddr == U32At(file, k + 12) && mh.loadAddr == U32At(file, k + 16)
            && mh.loadEndAddr == U32At(file, k + 20) && mh.bssEndAddr == U32At(file, k + 24)
            && mh.entryAddr == U32At(file, k + 28)
  {
  }

  /** Bit 16 clear: the loader returns normally with nothing but the
      header recorded; length, addresses and entry point stay 0. */
  lemma ResolveWithoutAddressFields(file: seq<byte>, k: nat)
    requires Scan(file) == Ok(k)
    requires !HasAddressFields(U32At(file, k + 4))
    ensures Resolve(file).Ok?
    ensures var p := Resolve(file).value;
            && p.imageLength == 0 && p.imageLoad == 0 && p.physicalLoad == 0
            && p.memHeader.entryAddr == 0
  {
  }

  /** The copy start and length of the derived branch, as computed. */
  lemma DerivedPlanFields(file: seq<byte>, k: nat, header: KernelHeader, mh: MemHeader)
    requires MemHeaderIsU32(mh) && mh.loadEndAddr == 0
    ensures var p := PlanFromAddressFields(file, k, header, mh);
            && p.imageLoad == Wrap64(mh.loadAddr - Wrap64(mh.headerAddr - k))
            && p.imageLength == Wrap64(|file| - p.imageLoad)
  {
  }

  /** The arithmetic of the derived branch on plain integers: `l - (h - k)`
      and `n - start` in `unsigned long`. */
  lemma UnsignedLongStart(l: nat, h: nat, k: nat, n: nat, load: nat, len: nat)
    requires l < U32_LIMIT && h < U32_LIMIT && k < U64_LIMIT && n < U64_LIMIT
    requires load == Wrap64(l - Wrap64(h - k)) && len == Wrap64(n - load)
    ensures var start := l + k - h;
            && load == Wrap64(start)
            && (0 <= start < U64_LIMIT ==> load == start)
            && (start < 0 ==> load == U64_LIMIT + start)
            && (U64_LIMIT <= start ==> load == start - U64_LIMIT)
            && (load <= n ==> len == n - load)
            && (n < load ==> len == U64_LIMIT + n - load)
  {
    Wrap64SubInner(l, h - k);
    Wrap64Once(l + k - h);
    Wrap64Once(n - load);
  }

  /** `load_end_addr == 0`: the two `unsigned long` subtractions give the
      copy start `L + O - H` modulo 2^64, borrow or not in `H - O`. A start
      in [0, 2^64) is kept as is; a negative one, a header address past
      `load_addr + O`, wraps to `2^64 + L + O - H`. The length is the rest
      of the file, or borrows 2^64 when the start lies past its end. */
  lemma PlanImageLoad(file: seq<byte>, k: nat, header: KernelHeader, mh: MemHeader)
    requires MemHeaderIsU32(mh) && mh.loadEndAddr == 0
    requires |file| < U64_LIMIT && k < U64_LIMIT
    ensures var p := PlanFromAddressFields(file, k, header, mh);
            var start := mh.loadAddr + k - mh.headerAddr;
            && p.imageLoad == Wrap64(start)
            && (0 <= start < U64_LIMIT ==> p.imageLoad == start)
            && (start < 0 ==> p.imageLoad == U64_LIMIT + start)
            && (p.imageLoad <= |file| ==> p.imageLength == |file| - p.imageLoad)
            && (|file| < p.imageLoad ==> p.imageLength == U64_LIMIT + |file| - p.imageLoad)
  {
    var p := PlanFromAddressFields(file, k, header, mh);
    DerivedPlanFields(file, k, header, mh);
    UnsignedLongStart(mh.loadAddr, mh.headerAddr, k, |file|, p.imageLoad, p.imageLength);
  }

  /** `load_end_addr == 0` and a copy start `L - (H - O)` inside the file:
      the image is the rest of the file from there, loaded at `load_addr`,
      and `load_end_addr` becomes its 32-bit end. */
  lemma ResolveDerivedLength(file: seq<byte>, k: nat)
    requires Scan(file) == Ok(k)
    requires HasAddressFields(U32At(file, k + 4))
    requires k + HEADER_SIZE + MEM_HEADER_SIZE <= |file|
    requires |file| < U64_LIMIT
    requires var mh := FileMemHeader(file, k);
             && mh.loadEndAddr == 0
             && mh.headerAddr <= mh.loadAddr + k
             && mh.loadAddr + k - mh.headerAddr <= |file|
    ensures Resolve(file).Ok?
    ensures var mh := FileMemHeader(file, k);
            var p := Resolve(file).value;
            && p.imageLoad == mh.loadAddr + k - mh.headerAddr
            && p.imageLength == |file| - p.imageLoad
            && p.imageLoad + p.imageLength == |file|
            && p.physicalLoad == mh.loadAddr
            && p.physicalHeader == mh.headerAddr
            && p.memHeader.loadEndAddr == Wrap32(mh.loadAddr + p.imageLength)
            && p.memHeader.entryAddr == mh.entryAddr
  {
    ResolveUsesAddressFields(file, k);
    PlanDerivedLength(file, k, DecodeKernelHeader(file, k), FileMemHeader(file, k));
  }

  /** The plan behind `ResolveDerivedLength`, for given address fields. */
  lemma PlanDerivedLength(file: seq<byte>, k: nat, header: KernelHeader, mh: MemHeader)
    requires MemHeaderIsU32(mh) && mh.loadEndAddr == 0
    requires k < |file| < U64_LIMIT
    requires mh.headerAddr <= mh.loadAddr + k && mh.loadAddr + k - mh.headerAddr <= |file|
    ensures var p := PlanFromAddressFields(file, k, header, mh);
            && p.imageLoad == mh.loadAddr + k - mh.headerAddr
            && p.imageLength == |file| - p.imageLoad
            && p.imageLoad + p.imageLength == |file|
            && p.physicalLoad == mh.loadAddr
            && p.physicalHeader == mh.headerAddr
            && p.memHeader.loadEndAddr == Wrap32(mh.loadAddr + p.imageLength)
            && p.memHeader.entryAddr == mh.entryAddr
  {
    PlanImageLoad(file, k, header, mh);
  }

  /** `load_end_addr == 0` with a copy start past the end of the file,
      either `L + O - H` itself or, when the header address lies past
      `load_addr + O`, its 64-bit wrap `2^64 + L + O - H`: the `unsigned
      long` length `|file| - image_load` borrows 2^64, so it is far larger
      than the file. */
  lemma ResolvePastEndOfFile(file: seq<byte>, k: nat)
    requires Scan(file) == Ok(k)
    requires HasAddressFields(U32At(file, k + 4))
    requires k + HEADER_SIZE + MEM_HEADER_SIZE <= |file| < U64_LIMIT
    requires var mh := FileMemHeader(file, k);
             && mh.loadEndAddr == 0
             && |file| < Wrap64(mh.loadAddr + k - mh.headerAddr)
    ensures Resolve(file).Ok?
    ensures var mh := FileMemHeader(file, k);
            var start := mh.loadAddr + k - mh.headerAddr;
            var p := Resolve(file).value;
            && p.imageLoad == Wrap64(start)
            && (mh.headerAddr <= mh.loadAddr + k ==> p.imageLoad == start)
            && (mh.loadAddr + k < mh.headerAddr ==> p.imageLoad == U64_LIMIT + start)
            && p.imageLength == U64_LIMIT + |file| - p.imageLoad
  {
    ResolveUsesAddressFields(file, k);
    PlanPastEndOfFile(file, k, DecodeKernelHeader(file, k), FileMemHeader(file, k));
  }

  /** The plan-level form of `ResolvePastEndOfFile`, for any address
      fields. */
  lemma PlanPastEndOfFile(file: seq<byte>, k: nat, header: KernelHeader, mh: MemHeader)
    requires MemHeaderIsU32(mh) && mh.loadEndAddr == 0
    requires k < |file| < U64_LIMIT
    requires |file| < Wrap64(mh.loadAddr + k - mh.headerAddr)
    ensures var start := mh.loadAddr + k - mh.headerAddr;
            var p := PlanFromAddressFields(file, k, header, mh);
            && p.imageLoad == Wrap64(start)
            && (mh.headerAddr <= mh.loadAddr + k ==> p.imageLoad == start)
            && (mh.loadAddr + k < mh.headerAddr ==> p.imageLoad == U64_LIMIT + start)
            && p.imageLength == U64_LIMIT + |file| - p.imageLoad
  {
    var p := PlanFromAddressFields(file, k, header, mh);
    DerivedPlanFields(file, k, header, mh);
    UnsignedLongStart(mh.loadAddr, mh.headerAddr, k, |file|, p.imageLoad, p.imageLength);
  }

  /** `load_end_addr != 0`: the length is `load_end_addr - load_addr` in
      `uint32_t` arithmetic, whatever the file length, and neither the copy
      source nor the load address is assigned: both stay 0. */
  lemma ResolveExplicitLength(file: seq<byte>, k: nat)
    requires Scan(file) == Ok(k)
    requires HasAddressFields(U32At(file, k + 4))
    requires k + HEADER_SIZE + MEM_HEADER_SIZE <= |file|
    requires FileMemHeader(file, k).loadEndAddr != 0
    ensures Resolve(file).Ok?
    ensures var mh := FileMemHeader(file, k);
            var p := Resolve(file).value;
            && p.imageLength == Wrap32(mh.loadEndAddr - mh.loadAddr)
            && (mh.loadAddr <= mh.loadEndAddr ==> p.imageLength == mh.loadEndAddr - mh.loadAddr)
            && (mh.loadEndAddr < mh.loadAddr ==> p.imageLength == U32_LIMIT + mh.loadEndAddr - mh.loadAddr)
            && p.imageLoad == 0 && p.physicalLoad == 0 && p.physicalHeader == 0
            && p.memHeader == mh
  {
    var mh := FileMemHeader(file, k);
    ResolveUsesAddressFields(file, k);
    Wrap32Sub(mh.loadEndAddr, mh.loadAddr);
  }

  /** Appending bytes after a found triple does not move it. */
  lemma {:induction false} ScanIgnoresTail(file: seq<byte>, tail: seq<byte>, k: nat)
    requires Scan(file) == Ok(k)
    ensures Scan(file + tail) == Ok(k)
  {
    var f := file + tail;
    ScanFindsFirstHeader(file, k);
    assert U32At(f, k) == U32At(file, k) && U32At(f, k + 4) == U32At(file, k + 4);
    assert U32At(f, k + 8) == U32At(file, k + 8);
    assert HeaderAt(f, k);
    forall j: nat | j < k && j % 4 == 0
      ensures !HeaderAt(f, j)
    {
      assert !HeaderAt(file, j);
      assert U32At(f, j) == U32At(file, j) && U32At(f, j + 4) == U32At(file, j + 4);
      assert U32At(f, j + 8) == U32At(file, j + 8);
    }
    ScanFindsFirstHeader(f, k);
  }

  /** With an explicit `load_end_addr` the plan does not read the file. */
  lemma ExplicitPlanIgnoresFile(a: seq<byte>, b: seq<byte>, k: nat, header: KernelHeader, mh: MemHeader)
    requires MemHeaderIsU32(mh) && mh.loadEndAddr != 0
    ensures PlanFromAddressFields(a, k, header, mh) == PlanFromAddressFields(b, k, header, mh)
  {
  }

  /** With an explicit `load_end_addr`, bytes appended to the kernel file
      change nothing in the plan. */
  lemma {:induction false} ExplicitPlanIgnoresFileLength(file: seq<byte>, tail: seq<byte>)
    requires Resolve(file).Ok?
    requires var k := Resolve(file).value.headerOffset;
             && HasAddressFields(U32At(file, k + 4))
             && k + HEADER_SIZE + MEM_HEADER_SIZE <= |file|
             && FileMemHeader(file, k).loadEndAddr != 0
    ensures Resolve(file + tail) == Resolve(file)
  {
    var f := file + tail;
    var k := Resolve(file).value.headerOffset;
    ScanIgnoresTail(file, tail, k);
    assert DecodeKernelHeader(f, k) == DecodeKernelHeader(file, k);
    assert FileMemHeader(f, k) == FileMemHeader(file, k);
    ResolveUsesAddressFields(file, k);
    ResolveUsesAddressFields(f, k);
    ExplicitPlanIgnoresFile(f, file, k, DecodeKernelHeader(file, k), FileMemHeader(file, k));
  }

  /** With `load_end_addr == 0` and no wrap-around, every byte appended to
      the kernel file adds one byte to the image. */
  lemma {:induction false} DerivedLengthTracksFileLength(file: seq<byte>, tail: seq<byte>)
    requires |file| + |tail| < U64_LIMIT
    requires Resolve(file).Ok?
    requires var k := Resolve(file).value.headerOffset;
             && HasAddressFields(U32At(file, k + 4))
             && k + HEADER_SIZE + MEM_HEADER_SIZE <= |file|
             && var mh := FileMemHeader(file, k);
             && mh.loadEndAddr == 0
             && mh.headerAddr <= mh.loadAddr + k
             && mh.loadAddr + k - mh.headerAddr <= |file|
    ensures Resolve(file + tail).Ok?
    ensures Resolve(file + tail).value.imageLength == Resolve(file).value.imageLength + |tail|
    ensures Resolve(file + tail).value.physicalLoad == Resolve(file).value.physicalLoad
  {
    var f := file + tail;
    var k := Resolve(file).value.headerOffset;
    ScanIgnoresTail(file, tail, k);
    assert DecodeKernelHeader(f, k) == DecodeKernelHeader(file, k);
    assert FileMemHeader(f, k) == FileMemHeader(file, k);
    ResolveDerivedLength(file, k);
    ResolveDerivedLength(f, k);
  }
}

=== FILE: MultibootFormat.dfy ===
/** The on-disk records of a Multiboot kernel (the magic/flags/checksum
    triple and the address fields of section 3.1 of the Multiboot
    Specification 0.6.96), the loader's error outcome, and the byte-level
    codecs between those records and the kernel file. */
module MultibootFormat {
  import opened Bytes

  /** The header magic a kernel carries (`MULTIBOOT_MAGIC`). */
  const HEADER_MAGIC: nat := 0x1BADB002
  /** The scan bound the loader declares (`MULTIBOOT_SEARCH_END`) but never
      applies; kept so that lemmas can speak about it. */
  const SEARCH_END: nat := 0x2000
  /** Byte size of the magic/flags/checksum triple. */
  const HEADER_SIZE: nat := 12
  /** Byte size of the address fields (five `uint32_t`). */
  const MEM_HEADER_SIZE: nat := 20
  /** Flags bit 16: the header carries the address fields. */
  const ADDRESS_FIELDS_BIT: nat := 0x10000

  /** `struct multiboot_header`. */
  datatype KernelHeader = KernelHeader(magic: nat, flags: nat, checksum: nat)

  /** `struct multiboot_mem_header`. */
  datatype MemHeader = MemHeader(
    headerAddr: nat,
    loadAddr: nat,
    loadEndAddr: nat,
    bssEndAddr: nat,
    entryAddr: nat)

  /** The zero-initialised static `mem_header` before anything is read. */
  const ZERO_MEM_HEADER := MemHeader(0, 0, 0, 0, 0)

  /** Every `goto fail` of the loader is a failed `fread`: either fewer
      bytes than `wanted` remained at file offset `offset`, or the read
      asked for items of size zero, for which `fread` reports no item. */
  datatype LoadError =
    | ShortRead(offset: nat, wanted: nat)
    | EmptyRead(offset: nat)

  datatype Result<+T> = Ok(value: T) | Err(error: LoadError) {
    predicate IsFailure() {
      Err?
    }

    function PropagateFailure<U>(): Result<U>
      requires Err?
    {
      Err(error)
    }

    function Extract(): T
      requires Ok?
    {
      value
    }
  }

  /** An optional value, such as the command line `multiboot` may be given. */
  datatype Option<+T> = None | Some(value: T)

  /** Whether the flags word asks for the address fields (bit 16). */
  predicate HasAddressFields(flags: nat) {
    (flags / ADDRESS_FIELDS_BIT) % 2 == 1
  }

  predicate KernelHeaderIsU32(h: KernelHeader) {
    h.magic < U32_LIMIT && h.flags < U32_LIMIT && h.checksum < U32_LIMIT
  }

  predicate MemHeaderIsU32(m: MemHeader) {
    && m.headerAddr < U32_LIMIT && m.loadAddr < U32_LIMIT && m.loadEndAddr < U32_LIMIT
    && m.bssEndAddr < U32_LIMIT && m.entryAddr < U32_LIMIT
  }

  function EncodeKernelHeader(h: KernelHeader): (b: seq<byte>)
    requires KernelHeaderIsU32(h)
    ensures |b| == HEADER_SIZE
  {
    U32Bytes(h.magic) + U32Bytes(h.flags) + U32Bytes(h.checksum)
  }

  /** The triple as read by three consecutive word `fread`s at offset `at`:
      no byte of the twelve is lost, since encoding it gives them back. */
  function DecodeKernelHeader(file: seq<byte>, at: nat): (h: KernelHeader)
    requires at + HEADER_SIZE <= |file|
    ensures KernelHeaderIsU32(h)
    ensures EncodeKernelHeader(h) == file[at..at + HEADER_SIZE]
  {
    U32EncodeDecode(file, at);
    U32EncodeDecode(file, at + 4);
    U32EncodeDecode(file, at + 8);
    assert file[at..at + HEADER_SIZE] == file[at..at + 4] + file[at + 4..at + 8] + file[at + 8..at + 12];
    KernelHeader(U32At(file, at), U32At(file, at + 4), U32At(file, at + 8))
  }

  function EncodeMemHeader(m: MemHeader): (b: seq<byte>)
    requires MemHeaderIsU32(m)
    ensures |b| == MEM_HEADER_SIZE
  {
    U32Bytes(m.headerAddr) + U32Bytes(m.loadAddr) + U32Bytes(m.loadEndAddr)
      + U32Bytes(m.bssEndAddr) + U32Bytes(m.entryAddr)
  }

  /** The address fields as read by one 20-byte `fread` at offset `at`: no
      byte of the twenty is lost, since encoding them gives them back. */
  function DecodeMemHeader(file: seq<byte>, at: nat): (m: MemHeader)
    requires at + MEM_HEADER_SIZE <= |file|
    ensures MemHeaderIsU32(m)
    ensures EncodeMemHeader(m) == file[at..at + MEM_HEADER_SIZE]
  {
    U32EncodeDecode(file, at);
    U32EncodeDecode(file, at + 4);
    U32EncodeDecode(file, at + 8);
    U32EncodeDecode(file, at + 12);
    U32EncodeDecode(file, at + 16);
    assert file[at..at + MEM_HEADER_SIZE]
        == file[at..at + 4] + file[at + 4..at + 8] + file[at + 8..at + 12]
           + file[at + 12..at + 16] + file[at + 16..at + 20];
    MemHeader(U32At(file, at), U32At(file, at + 4), U32At(file, at + 8), U32At(file, at + 12), U32At(file, at + 16))
  }

  /** The word of `b` at offset `at` is `v` when `b` holds `U32Bytes(v)` there. */
  lemma WordOfEncoding(b: seq<byte>, at: nat, v: nat)
    requires v < U32_LIMIT && at + 4 <= |b|
    requires b[at..at + 4] == U32Bytes(v)
    ensures U32At(b, at) == v
  {
    U32DecodeEncode(v);
    U32AtFrame(b, U32Bytes(v), at, 0);
  }

  /** Reading back an encoded triple, wherever it sits in a file, yields it. */
  lemma {:induction false} KernelHeaderRoundTrip(h: KernelHeader, pre: seq<byte>, post: seq<byte>)
    requires KernelHeaderIsU32(h)
    ensures DecodeKernelHeader(pre + EncodeKernelHeader(h) + post, |pre|) == h
  {
    var f := pre + EncodeKernelHeader(h) + post;
    var n := |pre|;
    assert f[n..n + 4] == U32Bytes(h.magic);
    assert f[n + 4..n + 8] == U32Bytes(h.flags);
    assert f[n + 8..n + 12] == U32Bytes(h.checksum);
    WordOfEncoding(f, n, h.magic);
    WordOfEncoding(f, n + 4, h.flags);
    WordOfEncoding(f, n + 8, h.checksum);
  }

  /** Reading back encoded address fields, wherever they sit in a file,
      yields them. */
  lemma {:induction false} MemHeaderRoundTrip(m: MemHeader, pre: seq<byte>, post: seq<byte>)
    requires MemHeaderIsU32(m)
    ensures DecodeMemHeader(pre + EncodeMemHeader(m) + post, |pre|) == m
  {
    var f := pre + EncodeMemHeader(m) + post;
    var n := |pre|;
    assert f[n..n + 4] == U32Bytes(m.headerAddr);
    assert f[n + 4..n + 8] == U32Bytes(m.loadAddr);
    assert f[n + 8..n + 12] == U32Bytes(m.loadEndAddr);
    assert f[n + 12..n + 16] == U32Bytes(m.bssEndAddr);
    assert f[n + 16..n + 20] == U32Bytes(m.entryAddr);
    WordOfEncoding(f, n, m.headerAddr);
    WordOfEncoding(f, n + 4, m.loadAddr);
    WordOfEncoding(f, n + 8, m.loadEndAddr);
    WordOfEncoding(f, n + 12, m.bssEndAddr);
    WordOfEncoding(f, n + 16, m.entryAddr);
  }
}

=== FILE: Vcpu.dfy ===
/** The processor state `multiboot` programs into vCPU 0 before the guest
    runs, and the machine state section 3.2 of the Multiboot Specification
    0.6.96 asks a boot loader to establish. Registers the loader does not
    set keep the values of the vCPU reset, which is not part of this model. */
module Vcpu {

  /** A segment descriptor as the VM runtime takes it: base, limit and the
      access word (type in bits 0-3, S in bit 4, DPL in bits 5-6, P in
      bit 7, D/B in bit 14, G in bit 15). */
  datatype SegmentDescriptor = SegmentDescriptor(base: nat, limit: nat, access: nat)

  /** The registers and descriptors `multiboot` sets on vCPU 0. */
  datatype VcpuState = VcpuState(
    cr0: nat,
    rax: nat,
    rbx: nat,
    rip: nat,
    cs: SegmentDescriptor,
    ds: SegmentDescriptor,
    es: SegmentDescriptor,
    ss: SegmentDescriptor,
    csSelector: nat,
    dsSelector: nat,
    esSelector: nat,
    ssSelector: nat)

  /** The value a Multiboot kernel expects in EAX on entry. */
  const BOOTLOADER_MAGIC: nat := 0x2BADB002

  /** Whether the bit of `v` selected by the single-bit mask `m` is set. */
  predicate BitSet(v: nat, m: nat)
    requires m > 0
  {
    (v / m) % 2 == 1
  }

  const CR0_PE: nat := 0x1
  const CR0_PG: nat := 0x8000_0000
  const ACCESS_RW: nat := 0x2        // readable code / writable data
  const ACCESS_CODE: nat := 0x8      // type: code rather than data
  const ACCESS_S: nat := 0x10        // code or data, not system
  const ACCESS_DPL0: nat := 0x20     // low bit of DPL
  const ACCESS_DPL1: nat := 0x40     // high bit of DPL
  const ACCESS_P: nat := 0x80        // present
  const ACCESS_DB: nat := 0x4000     // 32-bit default operand size
  const ACCESS_G: nat := 0x8000      // 4 KiB granularity

  /** CR0 of section 3.2: PE (bit 0) set, PG (bit 31) clear. */
  predicate ProtectedModeWithoutPaging(cr0: nat) {
    BitSet(cr0, CR0_PE) && !BitSet(cr0, CR0_PG)
  }

  /** A present, ring-0, 32-bit segment covering the whole 4 GiB with page
      granularity, starting at 0. */
  predicate Flat32(d: SegmentDescriptor) {
    && d.base == 0 && d.limit == 0xFFFFFFFF
    && BitSet(d.access, ACCESS_P) && !BitSet(d.access, ACCESS_DPL0) && !BitSet(d.access, ACCESS_DPL1)
    && BitSet(d.access, ACCESS_DB) && BitSet(d.access, ACCESS_G) && BitSet(d.access, ACCESS_S)
  }

  /** Section 3.2: a 32-bit read/execute code segment, offset 0, limit
      0xFFFFFFFF. */
  predicate FlatCode32(d: SegmentDescriptor) {
    Flat32(d) && BitSet(d.access, ACCESS_CODE) && BitSet(d.access, ACCESS_RW)
  }

  /** Section 3.2: a 32-bit read/write data segment, offset 0, limit
      0xFFFFFFFF. */
  predicate FlatData32(d: SegmentDescriptor) {
    Flat32(d) && !BitSet(d.access, ACCESS_CODE) && BitSet(d.access, ACCESS_RW)
  }

  /** The part of the Multiboot machine state that `multiboot` sets:
      EAX holds the boot-loader magic, EBX the address of the information
      table, CR0 enables protected mode without paging, CS is a flat code
      segment and DS, ES and SS are flat data segments. */
  predicate MeetsMultibootMachineState(s: VcpuState, infoAddr: nat) {
    && s.rax == BOOTLOADER_MAGIC
    && s.rbx == infoAddr
    && ProtectedModeWithoutPaging(s.cr0)
    && FlatCode32(s.cs)
    && FlatData32(s.ds) && FlatData32(s.es) && FlatData32(s.ss)
  }

  /** The register plan of `multiboot`: CR0 = 0x21, RAX = 0x2BADB002, RBX =
      the guest offset of the information table, RIP = the entry address,
      flat code (access 0xc09b) and data (access 0xc093) descriptors, and
      selectors 0x10 for CS and 0x18 for DS, ES and SS. */
  function EntryState(infoAddr: nat, entry: nat): (s: VcpuState)
    ensures MeetsMultibootMachineState(s, infoAddr)
    ensures s.rip == entry
    ensures s.csSelector != s.dsSelector
    ensures s.dsSelector == s.esSelector == s.ssSelector
  {
    var code := SegmentDescriptor(0, 0xFFFFFFFF, 0xc09b);
    var data := SegmentDescriptor(0, 0xFFFFFFFF, 0xc093);
    VcpuState(0x21, BOOTLOADER_MAGIC, infoAddr, entry, code, data, data, data, 0x10, 0x18, 0x18, 0x18)
  }
}
